=== FILE: README.md ===
# DomainRater in Dafny

This project models the domain-name rating system of `DomainRater.js`. A raw
string is parsed as a `Domain` by one anchored, case-insensitive pattern. The
pattern has these parts, in order:

- an optional protocol of letters followed by `://`;
- an optional subdomain of letters, digits, hyphens and dots, followed by a dot;
- a main domain and a TLD of letters, digits and hyphens, separated by a dot;
- an optional directory: a `/` followed by anything but line terminators.

When the domain is valid, a `DomainRater` rates it in four passes, in order: protocol, subdomain, main domain, TLD. Each pass
opens with a header and posts scored detail lines. A higher score is a worse
domain.

Modules, following the program's structure:

- `Ascii`: the character classes the pattern uses, and `toLowerCase` on them.
- `Decimal`: how `+` renders a number inside a message or a pattern.
- `Strings`: `indexOf`, `lastIndexOf`, `split` and `join`.
- `Parsing`: class `Domain`.
  - `IsMatch` states the pattern declaratively.
  - `Match` computes the captures by scanning.
  - The two are proved to agree on every string, so the captures are unique and JavaScript's backtracking order cannot matter.
  - `Parse` is the constructor. Its derived strings, `ApexDomain` and `DomainWithoutDirectory`, are the two getters that compute something.
  - `ReparseApex` states what `ApexDomain` returns; `DomainWithoutDirectoryText` and `ParseRoundTrip` state what `DomainWithoutDirectory` returns.
- `Runs`: what `#rateName` measures.
  - The maximal runs of three or more vowels or consonants that a global `{3,}` pattern finds.
  - The counts of the four weighted character classes.
- `Log`: the rater's report.
  - Each pass produces a list of `Header`/`Detail` messages.
  - `Replay` posts them, as `#addHeader` and `#addMessage` do, into a score and a list of lines.
- `Names`: `#rateName`, with `NameScore` as an independent closed form of the points it adds.
- `Rating`: class `DomainRater`.
  - The constructor is `NewRater`, and `Rate` carries the constructor's contract.
  - The four passes, and `getDomain` and `getPattern`, stated through what they return for a refused and for a matched input.
  - `ReadPattern` reads a pattern back, so that `getPattern` is stated by a round trip.
  - Each pass's total is proved equal to a reference score.

Points where the model follows the code rather than a looser reading of it:

- The restricted country-code list has 20 entries (`DomainRater.js:204-223`). `RestrictedCountryCodes` lists all 20.
- The directory does not always start at the input's first `/`: with a protocol, the `//` of `://` comes first. `DirectoryFromFirstSlash` states where the directory starts: at the first `/` after the scheme separator.
- A query without a path, as in `example.com?q=1`, does not fall into the directory. `?` is not a host character and the directory must start with `/`, so the whole input fails the pattern.
- `for (let match in ...)` walks the indices in order, so each run gets exactly one message, in order (`Names.EachRun`).

## Model

| member | source | states |
|---|---|---|
| Ascii.LowerKeepsClasses | DomainRater.js:258-261 | `toLowerCase` on the captures keeps every pattern class, leaves no capital, changes exactly the capitals, and turns each capital into the lower-case letter at the same place in the alphabet |
| Decimal.NatToString | DomainRater.js:113 | a count renders as a non-empty decimal numeral with no leading zero |
| Decimal.NatToStringRoundTrip | DomainRater.js:54-56 | reading the rendered numeral back gives the number |
| Decimal.NatToStringInjective | DomainRater.js:54-56 | different numbers render differently |
| Decimal.IntToString | DomainRater.js:82 | a delta renders as a minus sign exactly when it is negative, then a numeral without leading zeros that reads back as its magnitude |
| Strings.IndexOf | DomainRater.js:169 | the result is the first position of the character, or -1 when the character is absent |
| Strings.LastIndex | DomainRater.js:253 | the result is the last position of the character, or -1 when the character is absent |
| Strings.Split | DomainRater.js:169 | `split` always yields at least one piece |
| Strings.SplitPieces | DomainRater.js:169 | no piece contains the separator |
| Strings.SplitJoin | DomainRater.js:169 | joining the pieces with the separator gives back the string |
| Strings.SplitUnique | DomainRater.js:169 | any separator-free pieces that join to the string are exactly its split |
| Log.RenderAt | DomainRater.js:67-82 | where the earlier messages' lines end, a header puts a blank line, its text and a blank line, and a detail puts its one line |
| Log.RenderSplit | DomainRater.js:67-82 | the lines of a log are those of the messages before any one message, then that message's, then the rest's |
| Log.HeaderTextsAppend | DomainRater.js:67-75 | the headers of two logs posted one after the other are those of the first, then those of the second |
| Log.SectionHeaderTexts | DomainRater.js:67-82 | a header followed only by details names just that header |
| Log.TotalAppend | DomainRater.js:79-82 | the points of two logs posted one after the other add up |
| Log.RenderAllAppend | DomainRater.js:67-82 | the lines of two logs posted one after the other concatenate |
| Log.NonNegativeTotal | DomainRater.js:81 | a log whose every delta is non-negative adds a non-negative score |
| Log.DetailLinePositive | DomainRater.js:82 | a detail with a non-negative delta renders as tab, `[+`, the number, `] `, then the text |
| Log.DetailsRenderPositive | DomainRater.js:79-82 | in a log without negative deltas, as every rating log is, each detail line shows an explicit `+` before its delta |
| Log.Replay | DomainRater.js:67-86 | posting a log in order adds its total to the score and its rendered lines to the message list |
| Parsing.SplitScheme | DomainRater.js:253 | the scheme is letters, and the scheme, `://` and the rest reassemble the input |
| Parsing.SplitSchemeUnique | DomainRater.js:253 | since the host has no `:` or `/`, the scheme group is forced exactly when the input has one |
| Parsing.SplitHost | DomainRater.js:253 | a host split found is one the pattern admits: subdomain, main domain and TLD of the right classes |
| Parsing.SplitHostUnique | DomainRater.js:253 | every split the pattern admits is the one found: TLD after the last dot, main domain after the one before |
| Parsing.SplitPath | DomainRater.js:253 | the host is the longest run of host characters, and the directory is what follows |
| Parsing.Match | DomainRater.js:253-255 | captures found by scanning satisfy the pattern |
| Parsing.MatchComplete | DomainRater.js:253-255 | any captures the pattern admits are the ones found, so a match is unique |
| Parsing.Parse | DomainRater.js:251-265 | valid iff the pattern matches; the fields are the lower-cased captures, the directory verbatim, the complete domain the input |
| Parsing.FromCapturesWellFormed | DomainRater.js:256-262 | protocol is lower-case letters; subdomain is lower-case labels and dots; main domain and TLD are non-empty lower-case labels; the directory is empty or a `/` path |
| Parsing.DomainWithoutDirectoryText | DomainRater.js:321-323 | the domain without its directory reassembles the pattern's own pieces |
| Parsing.ParseRoundTrip | DomainRater.js:256-262 | the directory is the input's tail, and lower-casing what precedes it gives the domain without its directory |
| Parsing.DirectoryFromFirstSlash | DomainRater.js:253 | the directory starts at the first `/` after the scheme separator, or at the input's first `/` when there is no protocol |
| Parsing.SeparatorsShowParts | DomainRater.js:321-322 | before the directory, the input shows a `:` iff there is a protocol, and two or more dots iff there is a subdomain |
| Parsing.ReparseWithoutDirectory | DomainRater.js:321-323 | parsing the domain without its directory gives back the same parts with an empty directory |
| Parsing.ReparseApex | DomainRater.js:315-317 | the apex domain parses as itself, with no protocol, subdomain or directory |
| Runs.BlockEnd | DomainRater.js:117-118 | the block scan stops at the end of the name or on a character outside the class (that it is the first such is `Runs.BlockEndSpan`) |
| Runs.BlockEndSpan | DomainRater.js:117-118 | every character the block scan passes is in the class |
| Runs.BlockRunIsRun | DomainRater.js:117-118 | the scanner's notion of a run is the declarative one: a maximal block of three or more |
| Runs.RunsFromSound | DomainRater.js:119-120 | everything the scan lists is a run, and the runs come left to right without touching |
| Runs.RunsFromComplete | DomainRater.js:119-120 | every run at or after the scan position is listed |
| Runs.RunsExactly | DomainRater.js:117-120 | the runs `matchAll` finds are exactly the maximal blocks of three or more, in order, without overlap |
| Runs.RunTextsExactly | DomainRater.js:119-120 | every text `matchAll` reports is the text of a run, and every run's text is reported |
| Runs.Count | DomainRater.js:125-128 | a class count never exceeds the name's length |
| Runs.CountIsPositions | DomainRater.js:121-128 | the count is the number of positions holding a character of the class |
| Runs.WeightedClassesPartition | DomainRater.js:121-124 | every label character is in exactly one of the four weighted classes |
| Runs.WeightedCountsSum | DomainRater.js:121-128 | on a label the four weighted counts add up to its length |
| Names.EachRun | DomainRater.js:131-133 | one message per run, each adding points |
| Names.RunMessages | DomainRater.js:129-134 | a summary and per-run messages exist iff some run was found, and every one adds points |
| Names.CountMessage | DomainRater.js:141-152 | exactly one message for a non-zero count and none for zero; it adds the class weight per character |
| Names.VowelRuns | DomainRater.js:117-119 | every text listed is a maximal vowel run of three or more, and every such run is listed |
| Names.ConsonantRuns | DomainRater.js:118-120 | every text listed is a maximal consonant run of three or more, and every such run is listed |
| Names.NameMessages | DomainRater.js:111-152 | the first message is the length message, every message is a detail, and no message takes points away |
| Names.EachRunTotal | DomainRater.js:131-133 | the per-run messages add five points a run character |
| Names.RunMessagesTotal | DomainRater.js:129-140 | one class's run messages add ten a run plus five a run character |
| Names.CountPartTotal | DomainRater.js:141-152 | the count messages add 10, 15, 20 and 20 per character of the four classes |
| Names.NameTotal | DomainRater.js:111-152 | the points of a name are its length squared, plus the run points of both classes, plus the weighted counts |
| Names.HyphenWarned | DomainRater.js:114-116 | the hyphen warning is posted iff the name starts or ends with `-` |
| Names.EmptyNameScore | DomainRater.js:171-175 | an empty part, reported as malformed at no cost, has name score 0 |
| Rating.ProtocolVerdict | DomainRater.js:89-109 | the protocol verdict is a single detail worth 5 for `http` and 0 otherwise |
| Rating.ProtocolPass | DomainRater.js:87-110 | the protocol pass is its `Domain Protocol` header and one verdict, adding exactly the protocol score |
| Rating.PartsMessages | DomainRater.js:169-176 | the parts loop posts only details and never takes points away |
| Rating.PartMessagesShape | DomainRater.js:171-175 | an empty part posts exactly one 0-point `Malformed subdomain.` detail; any other part is rated as a name, its messages opening with `#rateName`'s length message; either way the part adds its name score |
| Rating.PartsMessagesAt | DomainRater.js:170-176 | the parts are rated in order: the messages of part n come after those of the parts before it and before those of the parts after it |
| Rating.SubDomainPass | DomainRater.js:157-179 | the subdomain pass is its `Subdomain` header followed only by details, and never takes points away |
| Rating.SubDomainPassShape | DomainRater.js:159-177 | no subdomain and `www` each get exactly one 0-point detail after the header; any other subdomain gets exactly the messages of its dot-separated parts |
| Rating.PartsTotal | DomainRater.js:169-176 | the parts loop adds the name scores of the parts, nothing for an empty part |
| Rating.SubDomainTotal | DomainRater.js:157-179 | no subdomain or `www` is free; any other subdomain costs the scores of its dot-separated parts |
| Rating.MainDomainPass | DomainRater.js:180-183 | the main-domain pass is its `Main Domain` header followed by at least one message, all details, and never takes points away |
| Rating.MainDomainPassShape | DomainRater.js:180-183 | after its header the pass posts the length message of `#rateName`, and the hyphen warning iff the main domain starts or ends with `-` |
| Rating.MainDomainTotal | DomainRater.js:180-183 | the main-domain pass adds exactly the name score of the main domain |
| Rating.TldVerdict | DomainRater.js:187-234 | the TLD verdict matches the table: 0 for `com` and the official TLDs, 5 for `net`/`org`, 10 for the 20 restricted codes, 35 for any other two-character TLD, 45 otherwise |
| Rating.TldPass | DomainRater.js:184-235 | the TLD pass is its `Top Level Domain` header, one point per character, and the verdict |
| Rating.TldPassShape | DomainRater.js:184-234 | the TLD length line is worth one point per character and the verdict carries the table's delta |
| Rating.UnlistedCountryCode | DomainRater.js:227-229 | every two-character TLD off the restricted list, such as `io`, costs 2 + 35 points |
| Rating.RatingLog | DomainRater.js:16-24 | the constructor posts a header first and no negative delta |
| Rating.RatingLogSections | DomainRater.js:16-24 | the constructor's headers are, in order, the domain without its directory, then the protocol, subdomain, main-domain and TLD headers; an invalid domain gets only the invalid header |
| Rating.Rate | DomainRater.js:12-25 | score and lines are the replay of the log; the score is non-negative; an invalid domain gets only the invalid header and score 0; a valid domain's first header names it without its directory |
| Rating.NewRater | DomainRater.js:12-25 | the rater holds the parsed input, with a non-negative score |
| Rating.ScoreBreakdown | DomainRater.js:16-21 | a valid domain's score is the sum of protocol, subdomain, main-domain, TLD-length and TLD scores |
| Rating.GetDomainIdempotent | DomainRater.js:29-31 | rating the apex domain that `getDomain` returns names that same apex domain again |
| Rating.InvalidInput | DomainRater.js:22-34 | an input the pattern refuses scores 0, gets only the invalid header, and `getDomain` reports `Invalid domain.` |
| Rating.InvalidInputPattern | DomainRater.js:60-62 | `getPattern` reports an input the pattern refuses as `Invalid domain.` |
| Rating.ValidInput | DomainRater.js:16-17 | a matched input's first header is its lower-cased text before the directory |
| Rating.ValidInputDomain | DomainRater.js:29-31 | for a matched input, `getDomain` is its lower-cased main domain, a dot, and its lower-cased TLD |
| Rating.Shape | DomainRater.js:58 | a position of the shape is `L` iff it held a letter, `N` iff it held a digit, and otherwise keeps its character |
| Rating.PrefixReads | DomainRater.js:53-58 | the pattern prefix has no dot, and reads back as the length and `L` for an all-letter name, the length and `N` for an all-digit name, and the shape otherwise |
| Rating.PatternRoundTrip | DomainRater.js:51-59 | the pattern of a parsed domain reads back as its TLD and the main domain's length and class mark, or its shape, as the three branches choose |
| Rating.ValidInputPattern | DomainRater.js:51-59 | for a matched input, `getPattern` reads back as the pattern of its lower-cased main domain and TLD |

## Left out

- `index.js` is not part of this model. It is DOM wiring plus a floating-point colour scale for the score.
- The `typeof` checks and their `throw` branches (`DomainRater.js:68-74`, `80-85`, `112`, `153-155`, `252`, `266-268`) are left out. Every argument is statically a string or an integer here, so those branches cannot be reached.
- `getScore`, `getMessages` and `getCompleteDomain`, and the other plain getters, are fields of the `DomainRater` and `Domain` datatypes. The caller's ability to mutate the array `getMessages` returns is not modelled, because the log is an immutable sequence.
- Characters are full Dafny `char`s, but only ASCII letters are case-folded. Without the `u` flag, no non-ASCII character folds into `[A-Z]`, so the pattern never admits one into a lower-cased field. The directory is kept verbatim.
- JavaScript numbers are doubles. The model uses unbounded integers, which agree with the source on every score below 2^53.
- Rating.NewRater: its contract is weaker than the constructor's full behaviour. The full contract is stated once, on `Rating.Rate`, for the parsed domain.

=== FILE: ascii.dfy ===
/**
 * Character classes used by the domain pattern and by the name rating.
 *
 * The pattern is matched case-insensitively without the Unicode flag, so
 * `[A-Z]` admits exactly the 52 ASCII letters: no non-ASCII character folds
 * into that range. Every class below is therefore a class of ASCII characters,
 * while the strings themselves may hold any character.
 */
module Ascii {

  predicate IsUpper(c: char) { 'A' <= c <= 'Z' }

  predicate IsLower(c: char) { 'a' <= c <= 'z' }

  /** `[A-Z]` under the case-insensitive flag. */
  predicate IsLetter(c: char) { IsUpper(c) || IsLower(c) }

  predicate IsDigit(c: char) { '0' <= c <= '9' }

  /** `[A-Z0-9\-]`: a character of the main domain or of the TLD. */
  predicate IsLabelChar(c: char) { IsLetter(c) || IsDigit(c) || c == '-' }

  /** `[A-Z0-9\-\.]`: a character of the subdomain. */
  predicate IsHostChar(c: char) { IsLabelChar(c) || c == '.' }

  /** The characters that `.` in a pattern without the dotAll flag refuses. */
  predicate IsLineTerminator(c: char) {
    c == '\n' || c == '\r' || c == '\U{2028}' || c == '\U{2029}'
  }

  predicate AllLetters(s: string) { forall i :: 0 <= i < |s| ==> IsLetter(s[i]) }

  predicate AllDigits(s: string) { forall i :: 0 <= i < |s| ==> IsDigit(s[i]) }

  predicate AllLabelChars(s: string) { forall i :: 0 <= i < |s| ==> IsLabelChar(s[i]) }

  predicate AllHostChars(s: string) { forall i :: 0 <= i < |s| ==> IsHostChar(s[i]) }

  predicate NoLineTerminator(s: string) { forall i :: 0 <= i < |s| ==> !IsLineTerminator(s[i]) }

  /** `toLowerCase` restricted to the ASCII letters, which is all it meets here. */
  function ToLower(c: char): char {
    if IsUpper(c) then (c as int + 32) as char else c
  }

  /** `String.prototype.toLowerCase` on strings whose letters are ASCII. */
  function Lower(s: string): string {
    seq(|s|, i requires 0 <= i < |s| => ToLower(s[i]))
  }

  /**
   * Lower-casing keeps every class the pattern uses, leaves no capital, and
   * turns each capital into the lower-case letter at the same place in the
   * alphabet.
   */
  lemma LowerKeepsClasses(s: string)
    ensures AllLetters(s) ==> AllLetters(Lower(s))
    ensures AllLabelChars(s) ==> AllLabelChars(Lower(s))
    ensures AllHostChars(s) ==> AllHostChars(Lower(s))
    ensures forall i :: 0 <= i < |s| ==> !IsUpper(Lower(s)[i])
    ensures forall i :: 0 <= i < |s| ==> (Lower(s)[i] == s[i] <==> !IsUpper(s[i]))
    ensures forall i :: 0 <= i < |s| && IsUpper(s[i]) ==>
      IsLower(Lower(s)[i]) && Lower(s)[i] as int - 'a' as int == s[i] as int - 'A' as int
  {
  }

  /** Lower-casing distributes over concatenation. */
  lemma LowerAppend(a: string, b: string)
    ensures Lower(a + b) == Lower(a) + Lower(b)
  {
  }

  /** Lower-casing a string without capitals changes nothing. */
  lemma LowerFixes(s: string)
    requires forall i :: 0 <= i < |s| ==> !IsUpper(s[i])
    ensures Lower(s) == s
  {
  }
}

=== FILE: decimal.dfy ===
/**
 * Decimal rendering of integers, as JavaScript's `+` renders a number when it
 * concatenates it to a string (message texts and `getPattern`).
 */
module Decimal {

  function DigitChar(d: nat): (c: char)
    requires d < 10
    ensures '0' <= c <= '9'
  {
    ('0' as int + d) as char
  }

  function DigitValue(c: char): nat
    requires '0' <= c <= '9'
  {
    c as int - '0' as int
  }

  predicate IsDecimal(s: string) {
    forall i :: 0 <= i < |s| ==> '0' <= s[i] <= '9'
  }

  /** The shortest decimal numeral of `n`: digits only, no leading zero. */
  function NatToString(n: nat): (r: string)
    ensures |r| >= 1 && IsDecimal(r)
    ensures |r| > 1 ==> r[0] != '0'
    ensures n < 10 <==> |r| == 1
    decreases n
  {
    if n < 10 then [DigitChar(n)] else NatToString(n / 10) + [DigitChar(n % 10)]
  }

  /** The value a numeral denotes. */
  function StringToNat(s: string): nat
    requires IsDecimal(s)
  {
    if |s| == 0 then 0 else StringToNat(s[..|s| - 1]) * 10 + DigitValue(s[|s| - 1])
  }

  /** Reading back a rendered number gives the number. */
  lemma {:induction false} NatToStringRoundTrip(n: nat)
    ensures StringToNat(NatToString(n)) == n
    decreases n
  {
    if n >= 10 {
      var r := NatToString(n);
      assert r[..|r| - 1] == NatToString(n / 10);
      NatToStringRoundTrip(n / 10);
    }
  }

  /** Different numbers render differently. */
  lemma NatToStringInjective(m: nat, n: nat)
    requires NatToString(m) == NatToString(n)
    ensures m == n
  {
    NatToStringRoundTrip(m);
    NatToStringRoundTrip(n);
  }

  /** An integer as `+` renders it: a minus sign exactly for a negative, then the magnitude's numeral. */
  function IntToString(n: int): (r: string)
    ensures |r| > 0 && (r[0] == '-' <==> n < 0)
    ensures var digits := if n < 0 then r[1..] else r;
      IsDecimal(digits) && StringToNat(digits) == if n < 0 then -n else n
    ensures var digits := if n < 0 then r[1..] else r;
      |digits| > 1 ==> digits[0] != '0'
  {
    if n < 0 then
      NatToStringRoundTrip(-n);
      "-" + NatToString(-n)
    else
      NatToStringRoundTrip(n);
      NatToString(n)
  }
}

=== FILE: log.dfy ===
/**
 * The rater's report: an integer score and an append-only list of lines,
 * built by `#addHeader` and `#addMessage`. The rating passes produce a
 * structured log of `Message`s; `Replay` posts them in order, exactly as the
 * passes call the two private helpers.
 */
module Log {
  import opened Decimal
  import opened Strings

  datatype Message =
    | Header(text: string)              // `#addHeader(text)`
    | Detail(delta: int, text: string)  // `#addMessage(text, delta)`

  /** A tab, the delta in brackets (with a `+` unless it is negative), a space, then the text. */
  function DetailLine(delta: int, text: string): string {
    "\t[" + (if delta >= 0 then "+" else "") + IntToString(delta) + "] " + text
  }

  /** The lines a message pushes: a header is framed by blank lines. */
  function Render(m: Message): (lines: seq<string>)
    ensures m.Header? ==> |lines| == 3
    ensures m.Detail? ==> |lines| == 1
  {
    match m
    case Header(t) => ["", t, ""]
    case Detail(d, t) => [DetailLine(d, t)]
  }

  function RenderAll(ms: seq<Message>): seq<string> {
    if |ms| == 0 then [] else Render(ms[0]) + RenderAll(ms[1..])
  }

  /**
   * Where message `n` of a log lands among the report's lines: a header puts
   * its text between two blank lines, a detail puts its one line.
   */
  lemma {:induction false} RenderAt(ms: seq<Message>, n: nat)
    requires n < |ms|
    ensures var o := |RenderAll(ms[..n])|;
      && (ms[n].Header? ==> o + 3 <= |RenderAll(ms)| && RenderAll(ms)[o..o + 3] == ["", ms[n].text, ""])
      && (ms[n].Detail? ==> o < |RenderAll(ms)| && RenderAll(ms)[o] == DetailLine(ms[n].delta, ms[n].text))
  {
    RenderSplit(ms, n);
  }

  /** The lines of a log are those of the messages before `n`, of message `n`, and of the rest. */
  lemma {:induction false} RenderSplit(ms: seq<Message>, n: nat)
    requires n < |ms|
    ensures RenderAll(ms) == RenderAll(ms[..n]) + Render(ms[n]) + RenderAll(ms[n + 1..])
  {
    var tail := [ms[n]] + ms[n + 1..];
    assert ms == ms[..n] + tail;
    RenderAllAppend(ms[..n], tail);
    assert tail[0] == ms[n] && tail[1..] == ms[n + 1..];
    assert RenderAll(tail) == Render(ms[n]) + RenderAll(ms[n + 1..]);
  }

  /** What a message adds to the score. */
  function DeltaOf(m: Message): int {
    if m.Detail? then m.delta else 0
  }

  /** The sum of the deltas of a log. */
  function Total(ms: seq<Message>): int {
    if |ms| == 0 then 0 else DeltaOf(ms[0]) + Total(ms[1..])
  }

  lemma {:induction false} TotalAppend(a: seq<Message>, b: seq<Message>)
    ensures Total(a + b) == Total(a) + Total(b)
  {
    if |a| > 0 {
      assert (a + b)[0] == a[0];
      assert (a + b)[1..] == a[1..] + b;
      TotalAppend(a[1..], b);
    } else {
      assert a + b == b;
    }
  }

  lemma {:induction false} RenderAllAppend(a: seq<Message>, b: seq<Message>)
    ensures RenderAll(a + b) == RenderAll(a) + RenderAll(b)
  {
    if |a| > 0 {
      assert (a + b)[0] == a[0];
      assert (a + b)[1..] == a[1..] + b;
      RenderAllAppend(a[1..], b);
    } else {
      assert a + b == b;
    }
  }

  /** Every score change in the log is non-negative. */
  predicate NonNegative(ms: seq<Message>) {
    forall n :: 0 <= n < |ms| ==> DeltaOf(ms[n]) >= 0
  }

  /** Every message of the log is a detail, so it opens no section of the report. */
  predicate AllDetails(ms: seq<Message>) {
    forall n :: 0 <= n < |ms| ==> ms[n].Detail?
  }

  lemma AllDetailsAppend(a: seq<Message>, b: seq<Message>)
    requires AllDetails(a) && AllDetails(b)
    ensures AllDetails(a + b)
  {
    forall n | 0 <= n < |a + b|
      ensures (a + b)[n].Detail?
    {
      if n >= |a| {
        assert (a + b)[n] == b[n - |a|];
      }
    }
  }

  /** The texts of the headers of a log, in the order they are posted. */
  function HeaderTexts(ms: seq<Message>): seq<string> {
    if |ms| == 0 then []
    else (if ms[0].Header? then [ms[0].text] else []) + HeaderTexts(ms[1..])
  }

  lemma {:induction false} HeaderTextsAppend(a: seq<Message>, b: seq<Message>)
    ensures HeaderTexts(a + b) == HeaderTexts(a) + HeaderTexts(b)
  {
    if |a| > 0 {
      assert (a + b)[0] == a[0];
      assert (a + b)[1..] == a[1..] + b;
      HeaderTextsAppend(a[1..], b);
    } else {
      assert a + b == b;
    }
  }

  lemma {:induction false} NoHeaderTexts(ms: seq<Message>)
    requires AllDetails(ms)
    ensures HeaderTexts(ms) == []
  {
    if |ms| > 0 {
      NoHeaderTexts(ms[1..]);
    }
  }

  /** A section of the report: one header followed only by details. */
  predicate Section(ms: seq<Message>) {
    |ms| > 0 && ms[0].Header? && forall n :: 0 < n < |ms| ==> ms[n].Detail?
  }

  /** A header followed by details is a section. */
  lemma HeaderThenDetails(h: Message, ms: seq<Message>)
    requires h.Header? && AllDetails(ms)
    ensures Section([h] + ms)
  {
    forall n | 0 < n < |[h] + ms|
      ensures ([h] + ms)[n].Detail?
    {
      assert ([h] + ms)[n] == ms[n - 1];
    }
  }

  /** A section names just its header. */
  lemma SectionHeaderTexts(ms: seq<Message>)
    requires Section(ms)
    ensures HeaderTexts(ms) == [ms[0].text]
  {
    NoHeaderTexts(ms[1..]);
  }

  /** A section posted after a log adds just its header to the log's headers. */
  lemma SectionAfter(ms: seq<Message>, section: seq<Message>)
    requires Section(section)
    ensures HeaderTexts(ms + section) == HeaderTexts(ms) + [section[0].text]
  {
    HeaderTextsAppend(ms, section);
    SectionHeaderTexts(section);
  }

  /** Five sections posted in order name their five headers in that order. */
  lemma FiveSections(s1: seq<Message>, s2: seq<Message>, s3: seq<Message>, s4: seq<Message>, s5: seq<Message>)
    requires Section(s1) && Section(s2) && Section(s3) && Section(s4) && Section(s5)
    ensures HeaderTexts(s1 + s2 + s3 + s4 + s5) == [s1[0].text, s2[0].text, s3[0].text, s4[0].text, s5[0].text]
  {
    SectionHeaderTexts(s1);
    SectionAfter(s1, s2);
    SectionAfter(s1 + s2, s3);
    SectionAfter(s1 + s2 + s3, s4);
    SectionAfter(s1 + s2 + s3 + s4, s5);
  }

  lemma NonNegativeAppend(a: seq<Message>, b: seq<Message>)
    requires NonNegative(a) && forall n :: 0 <= n < |b| ==> DeltaOf(b[n]) >= 0
    ensures NonNegative(a + b)
  {
    forall n | 0 <= n < |a + b|
      ensures DeltaOf((a + b)[n]) >= 0
    {
      if n >= |a| {
        assert (a + b)[n] == b[n - |a|];
      }
    }
  }

  lemma {:induction false} NonNegativeTotal(ms: seq<Message>)
    requires NonNegative(ms)
    ensures Total(ms) >= 0
  {
    if |ms| > 0 {
      NonNegativeTotal(ms[1..]);
    }
  }

  /** A detail with a non-negative delta renders as `\t[+n] text`. */
  lemma DetailLinePositive(delta: int, text: string)
    requires delta >= 0
    ensures DetailLine(delta, text) == "\t[+" + NatToString(delta) + "] " + text
  {
  }

  /** In a log without negative deltas, every detail renders with an explicit `+`. */
  lemma DetailsRenderPositive(ms: seq<Message>)
    requires NonNegative(ms)
    ensures forall n :: 0 <= n < |ms| && ms[n].Detail? ==>
      Render(ms[n]) == ["\t[+" + NatToString(ms[n].delta) + "] " + ms[n].text]
  {
    forall n | 0 <= n < |ms| && ms[n].Detail?
      ensures Render(ms[n]) == ["\t[+" + NatToString(ms[n].delta) + "] " + ms[n].text]
    {
      assert DeltaOf(ms[n]) >= 0;
      DetailLinePositive(ms[n].delta, ms[n].text);
    }
  }

  /** The private fields `#score` and `#messages`. */
  datatype Report = Report(score: int, lines: seq<string>)

  /** `#addHeader` or `#addMessage`: append the message's lines, add its delta. */
  function Post(r: Report, m: Message): Report {
    Report(r.score + DeltaOf(m), r.lines + Render(m))
  }

  /** Posting a log in order adds its total to the score and its lines to the list. */
  function Replay(r: Report, ms: seq<Message>): (r': Report)
    ensures r'.score == r.score + Total(ms)
    ensures r'.lines == r.lines + RenderAll(ms)
    decreases |ms|
  {
    if |ms| == 0 then r
    else
      var r' := Replay(Post(r, ms[0]), ms[1..]);
      AppendAssoc(r.lines, Render(ms[0]), RenderAll(ms[1..]));
      r'
  }
}

=== FILE: names.dfy ===
/**
 * `#rateName`: the messages and points for one name (a subdomain part or the
 * main domain). Longer names and names with long vowel or consonant runs,
 * rare letters, digits or hyphens score higher, and a higher score is worse.
 */
module Names {
  import opened Decimal
  import opened Strings
  import opened Runs
  import opened Log

  /**
   * The warning for a hyphen at either edge. It is one message; the literal is
   * written in two pieces only so that the prover sees its first character
   * (see `LengthIsNotWarning`), which it does not read out of one long literal.
   */
  const HyphenWarning: string := "Invalid identifier. " + "Cannot start or end with a hyphen!"

  /** The name's first or last character is a hyphen; an empty name has neither. */
  predicate HyphenAtEdge(name: string) {
    |name| > 0 && (name[0] == '-' || name[|name| - 1] == '-')
  }

  /** Every message of the log changes the score. */
  predicate Positive(ms: seq<Message>) {
    forall n :: 0 <= n < |ms| ==> DeltaOf(ms[n]) > 0
  }

  /** The summed length of some strings. */
  function TotalLength(ts: seq<string>): nat {
    if |ts| == 0 then 0 else |ts[0]| + TotalLength(ts[1..])
  }

  /** The loop over the runs: one message per run, worth five points a character. */
  function EachRun(runs: seq<string>, noun: string): (ms: seq<Message>)
    ensures |ms| == |runs|
    ensures NonNegative(ms)
    ensures (forall n :: 0 <= n < |runs| ==> |runs[n]| > 0) ==> Positive(ms)
  {
    if |runs| == 0 then []
    else
      [Detail(5 * |runs[0]|, NatToString(|runs[0]|) + " " + noun + " in sequence: " + runs[0])]
      + EachRun(runs[1..], noun)
  }

  /**
   * The run messages of one class: when there is any run, a summary worth ten
   * points a run, then one message per run.
   */
  function RunMessages(runs: seq<string>, noun: string): (ms: seq<Message>)
    ensures |runs| == 0 <==> |ms| == 0
    ensures NonNegative(ms)
    ensures (forall n :: 0 <= n < |runs| ==> |runs[n]| > 0) ==> Positive(ms)
  {
    if |runs| == 0 then []
    else
      [Detail(10 * |runs|, NatToString(|runs|) + " groups of 3 or more " + noun + ": " + Join(runs, ", "))]
      + EachRun(runs, noun)
  }

  /** One count message, present only when the count is not zero. */
  function CountMessage(count: nat, weight: nat, text: string): (ms: seq<Message>)
    ensures |ms| == (if count == 0 then 0 else 1)
    ensures weight > 0 ==> Positive(ms)
    ensures count > 0 ==> ms[0].Detail? && ms[0].delta == weight * count
  {
    if count == 0 then [] else [Detail(weight * count, NatToString(count) + text)]
  }

  /** The runs `/[aeiouy]{3,}/ig` finds, as texts. */
  function VowelRuns(name: string): (ts: seq<string>)
    ensures forall n :: 0 <= n < |ts| ==> |ts[n]| >= 3 && IsRunText(name, IsVowel, ts[n])
    ensures forall r :: IsRun(name, IsVowel, r) ==> name[r.start..r.end] in ts
  {
    RunTextsExactly(name, IsVowel);
    RunTexts(name, MatchRuns(name, IsVowel))
  }

  /** The runs `/[bcdfghjklmnpqrstvwxz]{3,}/ig` finds, as texts. */
  function ConsonantRuns(name: string): (ts: seq<string>)
    ensures forall n :: 0 <= n < |ts| ==> |ts[n]| >= 3 && IsRunText(name, IsConsonant, ts[n])
    ensures forall r :: IsRun(name, IsConsonant, r) ==> name[r.start..r.end] in ts
  {
    RunTextsExactly(name, IsConsonant);
    RunTexts(name, MatchRuns(name, IsConsonant))
  }

  /** The length penalty is the square of the length. */
  function Square(n: nat): nat { n * n }

  function LengthMessage(name: string): Message {
    Detail(Square(|name|), "Length of " + name + ": " + NatToString(|name|) + " characters")
  }

  function HyphenMessages(name: string): (ms: seq<Message>)
    ensures NonNegative(ms) && AllDetails(ms)
  {
    if HyphenAtEdge(name) then [Detail(0, HyphenWarning)] else []
  }

  /** The run messages: vowels first, then consonants. */
  function RunPart(name: string): (ms: seq<Message>)
    ensures Positive(ms)
  {
    var v := RunMessages(VowelRuns(name), "vowels");
    var c := RunMessages(ConsonantRuns(name), "consonants");
    PositiveAppend(v, c);
    v + c
  }

  /** The four count messages. */
  function CountPart(name: string): (ms: seq<Message>)
    ensures Positive(ms)
  {
    var c1 := CountMessage(Count(name, IsCheap), 10, " characters from [etaoinshrdl]");
    var c2 := CountMessage(Count(name, IsMedium), 15, " characters from [cumwfgyp]");
    var c3 := CountMessage(Count(name, IsExpensive), 20, " characters from [bvkxjqz]");
    var c4 := CountMessage(Count(name, IsSpecial), 20, " numbers and hyphens");
    PositiveAppend(c1, c2);
    PositiveAppend(c1 + c2, c3);
    PositiveAppend(c1 + c2 + c3, c4);
    c1 + c2 + c3 + c4
  }

  /** Everything after the length and hyphen messages: runs, then counts. */
  function StatisticMessages(name: string): (ms: seq<Message>)
    ensures Positive(ms)
  {
    PositiveAppend(RunPart(name), CountPart(name));
    RunPart(name) + CountPart(name)
  }

  /** A message that changes the score is a detail. */
  lemma PositiveDetails(ms: seq<Message>)
    requires Positive(ms)
    ensures AllDetails(ms)
  {
    forall n | 0 <= n < |ms|
      ensures ms[n].Detail?
    {
      assert DeltaOf(ms[n]) > 0;
    }
  }

  lemma PositiveAppend(a: seq<Message>, b: seq<Message>)
    requires Positive(a) && Positive(b)
    ensures Positive(a + b)
  {
    forall n | 0 <= n < |a + b|
      ensures DeltaOf((a + b)[n]) > 0
    {
      if n >= |a| {
        assert (a + b)[n] == b[n - |a|];
      }
    }
  }

  /** The messages `#rateName(name)` posts, in order. */
  function NameMessages(name: string): (ms: seq<Message>)
    ensures NonNegative(ms) && AllDetails(ms)
    ensures |ms| > 0 && ms[0] == LengthMessage(name)
  {
    var hyphen := HyphenMessages(name);
    var rest := StatisticMessages(name);
    NonNegativeAppend([LengthMessage(name)], hyphen);
    var head := [LengthMessage(name)] + hyphen;
    NonNegativeAppend(head, rest);
    AllDetailsAppend([LengthMessage(name)], hyphen);
    PositiveDetails(rest);
    AllDetailsAppend(head, rest);
    head + rest
  }

  /** The number of characters the runs cover. */
  function RunLength(rs: seq<Span>): int {
    if |rs| == 0 then 0 else rs[0].end - rs[0].start + RunLength(rs[1..])
  }

  /**
   * The points of a name, stated over its statistics: the square of its length,
   * ten per run plus five per run character for each of vowels and consonants,
   * and 10, 15, 20 and 20 per character of the four weighted classes.
   */
  function NameScore(name: string): int {
    Square(|name|)
    + 10 * |MatchRuns(name, IsVowel)| + 5 * RunLength(MatchRuns(name, IsVowel))
    + 10 * |MatchRuns(name, IsConsonant)| + 5 * RunLength(MatchRuns(name, IsConsonant))
    + 10 * Count(name, IsCheap) + 15 * Count(name, IsMedium)
    + 20 * Count(name, IsExpensive) + 20 * Count(name, IsSpecial)
  }

  lemma {:induction false} EachRunTotal(runs: seq<string>, noun: string)
    ensures Total(EachRun(runs, noun)) == 5 * TotalLength(runs)
  {
    if |runs| > 0 {
      var head := Detail(5 * |runs[0]|, NatToString(|runs[0]|) + " " + noun + " in sequence: " + runs[0]);
      TotalAppend([head], EachRun(runs[1..], noun));
      EachRunTotal(runs[1..], noun);
    }
  }

  lemma {:induction false} RunTextsLength(s: string, rs: seq<Span>)
    requires forall n :: 0 <= n < |rs| ==> rs[n].start <= rs[n].end <= |s|
    ensures TotalLength(RunTexts(s, rs)) == RunLength(rs)
  {
    if |rs| > 0 {
      assert RunTexts(s, rs)[1..] == RunTexts(s, rs[1..]);
      RunTextsLength(s, rs[1..]);
    }
  }

  lemma RunMessagesTotal(s: string, k: char -> bool, noun: string)
    ensures Total(RunMessages(RunTexts(s, MatchRuns(s, k)), noun)) == 10 * |MatchRuns(s, k)| + 5 * RunLength(MatchRuns(s, k))
  {
    var runs := RunTexts(s, MatchRuns(s, k));
    RunTextsLength(s, MatchRuns(s, k));
    if |runs| > 0 {
      var head := Detail(10 * |runs|, NatToString(|runs|) + " groups of 3 or more " + noun + ": " + Join(runs, ", "));
      TotalAppend([head], EachRun(runs, noun));
      EachRunTotal(runs, noun);
    }
  }

  lemma RunPartTotal(name: string)
    ensures Total(RunPart(name)) == 10 * |MatchRuns(name, IsVowel)| + 5 * RunLength(MatchRuns(name, IsVowel))
      + 10 * |MatchRuns(name, IsConsonant)| + 5 * RunLength(MatchRuns(name, IsConsonant))
  {
    RunMessagesTotal(name, IsVowel, "vowels");
    RunMessagesTotal(name, IsConsonant, "consonants");
    TotalAppend(RunMessages(VowelRuns(name), "vowels"), RunMessages(ConsonantRuns(name), "consonants"));
  }

  lemma CountPartTotal(name: string)
    ensures Total(CountPart(name)) == 10 * Count(name, IsCheap) + 15 * Count(name, IsMedium)
      + 20 * Count(name, IsExpensive) + 20 * Count(name, IsSpecial)
  {
    var c1 := CountMessage(Count(name, IsCheap), 10, " characters from [etaoinshrdl]");
    var c2 := CountMessage(Count(name, IsMedium), 15, " characters from [cumwfgyp]");
    var c3 := CountMessage(Count(name, IsExpensive), 20, " characters from [bvkxjqz]");
    var c4 := CountMessage(Count(name, IsSpecial), 20, " numbers and hyphens");
    TotalAppend(c1, c2);
    TotalAppend(c1 + c2, c3);
    TotalAppend(c1 + c2 + c3, c4);
  }

  /** The points `#rateName` adds are exactly the name's score. */
  lemma NameTotal(name: string)
    ensures Total(NameMessages(name)) == NameScore(name)
  {
    TotalAppend([LengthMessage(name)], HyphenMessages(name));
    TotalAppend([LengthMessage(name)] + HyphenMessages(name), StatisticMessages(name));
    TotalAppend(RunPart(name), CountPart(name));
    RunPartTotal(name);
    CountPartTotal(name);
  }

  /** The hyphen warning is posted exactly when the name starts or ends with a hyphen. */
  lemma HyphenWarned(name: string)
    ensures Detail(0, HyphenWarning) in NameMessages(name) <==> HyphenAtEdge(name)
  {
    var w := Detail(0, HyphenWarning);
    var head := [LengthMessage(name)] + HyphenMessages(name);
    var rest := StatisticMessages(name);
    assert NameMessages(name) == head + rest;
    LengthIsNotWarning(name);
    NotInPositive(rest, w);
    assert w in head <==> HyphenAtEdge(name);
  }

  lemma LengthIsNotWarning(name: string)
    ensures LengthMessage(name) != Detail(0, HyphenWarning)
  {
    assert LengthMessage(name).text[0] == 'L';
    assert HyphenWarning[0] == 'I';
  }

  /** A message that does not change the score is in no positive log. */
  lemma NotInPositive(ms: seq<Message>, m: Message)
    requires Positive(ms) && DeltaOf(m) <= 0
    ensures m !in ms
  {
  }

  lemma EmptyNameScore()
    ensures NameScore("") == 0
  {
    assert MatchRuns("", IsVowel) == [];
    assert MatchRuns("", IsConsonant) == [];
  }
}

=== FILE: parsing.dfy ===
/**
 * The `Domain` class: one anchored, case-insensitive pattern match that splits
 * a raw string into protocol, subdomain, main domain, TLD and directory.
 *
 * The pattern is
 *   scheme "://" ?   subdomain "." ?   label "." label   path ?
 * with scheme `[A-Z]+`, subdomain `[A-Z0-9\-\.]+`, each label `[A-Z0-9\-]+`
 * and path `/` followed by any characters but line terminators.
 * `IsMatch` states that pattern declaratively; `Match` finds the captures
 * by scanning, and the two are proved to agree on every string.
 */
module Parsing {
  import opened Ascii
  import opened Strings

  datatype Option<T> = None | Some(value: T)

  /** The raw text of the five capturing groups; an absent group is "". */
  datatype Captures = Captures(scheme: string, sub: string, main: string, tld: string, path: string)

  /** The text a match with these captures spans. */
  function Assemble(c: Captures): string {
    SchemePrefix(c.scheme) + HostText(HostParts(c.sub, c.main, c.tld)) + c.path
  }

  /** The optional directory: empty, or a `/` followed by anything but line terminators. */
  predicate IsPath(p: string) {
    |p| == 0 || (p[0] == '/' && NoLineTerminator(p[1..]))
  }

  /** The whole of `s` matches the pattern, with group captures `c`. */
  predicate IsMatch(s: string, c: Captures) {
    && AllLetters(c.scheme)
    && AllHostChars(c.sub)
    && |c.main| > 0 && AllLabelChars(c.main)
    && |c.tld| > 0 && AllLabelChars(c.tld)
    && IsPath(c.path)
    && s == Assemble(c)
  }

  /** Length of the longest prefix of `s` whose characters all satisfy `p`. */
  function SpanOf(s: string, p: char -> bool): (k: nat)
    ensures k <= |s|
    ensures forall i :: 0 <= i < k ==> p(s[i])
    ensures k == |s| || !p(s[k])
  {
    if |s| == 0 || !p(s[0]) then 0 else 1 + SpanOf(s[1..], p)
  }

  lemma SpanOfUnique(s: string, p: char -> bool, k: nat)
    requires k <= |s|
    requires forall i :: 0 <= i < k ==> p(s[i])
    requires k == |s| || !p(s[k])
    ensures SpanOf(s, p) == k
  {
  }

  /** Whether `s` continues, at `k`, with the scheme separator. */
  predicate SeparatorAt(s: string, k: nat) {
    k + 3 <= |s| && s[k..k + 3] == "://"
  }

  /** The text a scheme capture contributes in front of the host. */
  function SchemePrefix(scheme: string): string {
    if |scheme| == 0 then "" else scheme + "://"
  }

  /**
   * Splits off `scheme "://"`. Neither `:` nor `/` can occur in the host, so
   * the scheme is the leading run of letters whenever "://" follows it.
   */
  function SplitScheme(s: string): (r: (string, string))
    ensures AllLetters(r.0)
    ensures s == SchemePrefix(r.0) + r.1
  {
    var k := SpanOf(s, IsLetter);
    if 0 < k && SeparatorAt(s, k) then
      assert s == s[..k] + "://" + s[k + 3..];
      (s[..k], s[k + 3..])
    else ("", s)
  }

  lemma SplitSchemeUnique(scheme: string, host: string, path: string)
    requires AllLetters(scheme) && AllHostChars(host) && IsPath(path)
    ensures SplitScheme(SchemePrefix(scheme) + host + path) == (scheme, host + path)
  {
    if |scheme| > 0 {
      assert SchemePrefix(scheme) + host + path == scheme + "://" + (host + path);
      SchemeFound(scheme, host + path);
    } else {
      assert SchemePrefix(scheme) + host + path == host + path;
      NoSchemeFound(host, path);
    }
  }

  lemma SchemeFound(scheme: string, rest: string)
    requires |scheme| > 0 && AllLetters(scheme)
    ensures SplitScheme(scheme + "://" + rest) == (scheme, rest)
  {
    var s := scheme + "://" + rest;
    assert s[|scheme|] == ':';
    SpanOfUnique(s, IsLetter, |scheme|);
    assert s[|scheme|..|scheme| + 3] == "://";
    assert s[..|scheme|] == scheme;
    assert s[|scheme| + 3..] == rest;
  }

  lemma NoSchemeFound(host: string, path: string)
    requires AllHostChars(host) && IsPath(path)
    ensures SplitScheme(host + path) == ("", host + path)
  {
    var s := host + path;
    var k := SpanOf(s, IsLetter);
    assert k <= |host| by {
      if |path| > 0 {
        assert s[|host|] == '/';
      }
    }
    assert !SeparatorAt(s, k) by {
      if k < |s| {
        assert s[k] != ':';
      }
    }
  }

  /** The subdomain, main domain and TLD that make up a host. */
  datatype HostParts = HostParts(sub: string, main: string, tld: string)

  function HostText(p: HostParts): string {
    (if |p.sub| == 0 then "" else p.sub + ".") + p.main + "." + p.tld
  }

  predicate IsHostSplit(host: string, p: HostParts) {
    && AllHostChars(p.sub)
    && |p.main| > 0 && AllLabelChars(p.main)
    && |p.tld| > 0 && AllLabelChars(p.tld)
    && host == HostText(p)
  }

  /**
   * The host part of the pattern, on a run of host characters: the TLD is the
   * non-empty label after the last dot, the main domain the non-empty label
   * before it, and whatever precedes the dot before that, if there is one, is
   * the subdomain.
   */
  function SplitHost(host: string): (r: Option<HostParts>)
    requires AllHostChars(host)
    ensures r.Some? ==> IsHostSplit(host, r.value)
  {
    var d1 := LastIndex(host, '.');
    if d1 < 0 then None
    else
      var front := host[..d1];
      var tld := host[d1 + 1..];
      var d2 := LastIndex(front, '.');
      var main := front[d2 + 1..];
      var sub := if d2 < 0 then "" else front[..d2];
      // a dot opening the host leaves an empty subdomain, which `+` refuses
      if |tld| == 0 || |main| == 0 || d2 == 0 then None
      else
        HostSplitFound(host, d1, d2);
        Some(HostParts(sub, main, tld))
  }

  /** What follows the last dot of a run of host characters is a label. */
  lemma LabelAfter(s: string, k: int)
    requires AllHostChars(s) && -1 <= k < |s|
    requires forall j :: k < j < |s| ==> s[j] != '.'
    ensures AllLabelChars(s[k + 1..])
  {
  }

  lemma HostSplitFound(host: string, d1: nat, d2: int)
    requires AllHostChars(host) && d1 < |host|
    requires d1 == LastIndex(host, '.')
    requires d2 == LastIndex(host[..d1], '.') && d2 != 0
    requires |host[d1 + 1..]| > 0 && |host[..d1][d2 + 1..]| > 0
    ensures IsHostSplit(host, HostParts(if d2 < 0 then "" else host[..d1][..d2], host[..d1][d2 + 1..], host[d1 + 1..]))
  {
    var front := host[..d1];
    var tld := host[d1 + 1..];
    var main := front[d2 + 1..];
    assert host == front + "." + tld;
    LabelAfter(host, d1);
    LabelAfter(front, d2);
    if d2 > 0 {
      assert front == front[..d2] + "." + main;
    } else {
      assert front == main;
    }
  }

  lemma SplitHostUnique(p: HostParts)
    requires IsHostSplit(HostText(p), p)
    ensures SplitHost(HostText(p)) == Some(p)
  {
    var host := HostText(p);
    var front := (if |p.sub| == 0 then "" else p.sub + ".") + p.main;
    assert host == front + "." + p.tld;
    LastIndexUnique(host, '.', |front|);
    assert host[..|front|] == front;
    assert host[|front| + 1..] == p.tld;
    FrontDot(p);
  }

  /** The last dot in front of the TLD separates the subdomain from the main domain. */
  lemma FrontDot(p: HostParts)
    requires AllHostChars(p.sub) && AllLabelChars(p.main)
    ensures var front := (if |p.sub| == 0 then "" else p.sub + ".") + p.main;
      var d2 := LastIndex(front, '.');
      && d2 == (if |p.sub| == 0 then -1 else |p.sub|)
      && front[d2 + 1..] == p.main
      && (|p.sub| > 0 ==> front[..d2] == p.sub)
  {
    var front := (if |p.sub| == 0 then "" else p.sub + ".") + p.main;
    if |p.sub| == 0 {
      assert front == p.main;
      LastIndexUnique(front, '.', -1);
    } else {
      assert front == p.sub + "." + p.main;
      LastIndexUnique(front, '.', |p.sub|);
      assert front[|p.sub| + 1..] == p.main;
      assert front[..|p.sub|] == p.sub;
    }
  }

  /** Splits `rest` into its longest run of host characters and what follows. */
  function SplitPath(rest: string): (r: (string, string))
    ensures AllHostChars(r.0)
    ensures rest == r.0 + r.1
    ensures |r.1| == 0 || !IsHostChar(r.1[0])
  {
    var h := SpanOf(rest, IsHostChar);
    assert rest == rest[..h] + rest[h..];
    (rest[..h], rest[h..])
  }

  /** The captures of the pattern on `s`, or None when it does not match. */
  function Match(s: string): (m: Option<Captures>)
    ensures m.Some? ==> IsMatch(s, m.value)
  {
    var scheme := SplitScheme(s);
    var hostPath := SplitPath(scheme.1);
    if !IsPath(hostPath.1) then None
    else match SplitHost(hostPath.0)
      case None => None
      case Some(p) =>
        AppendAssoc(SchemePrefix(scheme.0), HostText(p), hostPath.1);
        Some(Captures(scheme.0, p.sub, p.main, p.tld, hostPath.1))
  }

  /** Every match the pattern admits is the one `Match` finds: captures are unique. */
  lemma MatchComplete(s: string)
    ensures forall c :: IsMatch(s, c) ==> Match(s) == Some(c)
  {
    forall c | IsMatch(s, c)
      ensures Match(s) == Some(c)
    {
      MatchUnique(s, c);
    }
  }

  lemma MatchUnique(s: string, c: Captures)
    requires IsMatch(s, c)
    ensures Match(s) == Some(c)
  {
    var p := HostParts(c.sub, c.main, c.tld);
    var host := HostText(p);
    HostTextChars(p);
    SplitSchemeUnique(c.scheme, host, c.path);
    SplitPathUnique(host, c.path);
    SplitHostUnique(p);
  }

  lemma HostTextChars(p: HostParts)
    requires AllHostChars(p.sub) && AllLabelChars(p.main) && AllLabelChars(p.tld)
    ensures AllHostChars(HostText(p))
  {
  }

  lemma SplitPathUnique(host: string, path: string)
    requires AllHostChars(host) && IsPath(path)
    ensures SplitPath(host + path) == (host, path)
  {
    var rest := host + path;
    if |path| > 0 {
      assert rest[|host|] == '/';
    }
    SpanOfUnique(rest, IsHostChar, |host|);
    assert rest[..|host|] == host;
    assert rest[|host|..] == path;
  }

  /**
   * A parsed domain. The source leaves every field undefined when the
   * pattern fails, so an invalid domain carries none.
   */
  datatype Domain =
    | Invalid
    | Valid(completeDomain: string, protocol: string, subDomain: string,
            mainDomain: string, tld: string, directory: string)

  /** Every field but the directory is lower-cased; the directory is kept verbatim. */
  function FromCaptures(s: string, c: Captures): Domain {
    Valid(s, Lower(c.scheme), Lower(c.sub), Lower(c.main), Lower(c.tld), c.path)
  }

  predicate IsLowerLabelChar(c: char) { IsLower(c) || IsDigit(c) || c == '-' }

  /** The shapes every field of a successful parse has. */
  predicate WellFormed(d: Domain)
    requires d.Valid?
  {
    && (forall i :: 0 <= i < |d.protocol| ==> IsLower(d.protocol[i]))
    && (forall i :: 0 <= i < |d.subDomain| ==> IsLowerLabelChar(d.subDomain[i]) || d.subDomain[i] == '.')
    && |d.mainDomain| > 0 && (forall i :: 0 <= i < |d.mainDomain| ==> IsLowerLabelChar(d.mainDomain[i]))
    && |d.tld| > 0 && (forall i :: 0 <= i < |d.tld| ==> IsLowerLabelChar(d.tld[i]))
    && IsPath(d.directory)
  }

  /** `new Domain(s)`. */
  function Parse(s: string): (d: Domain)
    ensures d.Valid? <==> exists c :: IsMatch(s, c)
    ensures forall c :: IsMatch(s, c) ==> d == FromCaptures(s, c)
    ensures d.Valid? ==> d.completeDomain == s && WellFormed(d)
  {
    MatchComplete(s);
    match Match(s)
    case None => Invalid
    case Some(c) =>
      FromCapturesWellFormed(s, c);
      FromCaptures(s, c)
  }

  /** The domain a match parses to: the captures, lower-cased but for the directory. */
  lemma ParseIs(s: string, c: Captures)
    requires IsMatch(s, c)
    ensures Parse(s) == FromCaptures(s, c)
  {
  }

  lemma FromCapturesWellFormed(s: string, c: Captures)
    requires IsMatch(s, c)
    ensures WellFormed(FromCaptures(s, c))
  {
    LowerKeepsClasses(c.scheme);
    LowerKeepsClasses(c.sub);
    LowerKeepsClasses(c.main);
    LowerKeepsClasses(c.tld);
  }

  /** `getApexDomain()`. */
  function ApexDomain(d: Domain): string
    requires d.Valid?
  {
    d.mainDomain + "." + d.tld
  }

  /** `getDomainWithoutDirectory()`. */
  function DomainWithoutDirectory(d: Domain): string
    requires d.Valid?
  {
    d.protocol + (if |d.protocol| > 0 then "://" else "")
    + d.subDomain + (if |d.subDomain| > 0 then "." else "")
    + ApexDomain(d)
  }

  /** The domain without its directory, as the pattern's own pieces. */
  lemma DomainWithoutDirectoryText(d: Domain)
    requires d.Valid?
    ensures DomainWithoutDirectory(d)
         == SchemePrefix(d.protocol) + HostText(HostParts(d.subDomain, d.mainDomain, d.tld))
  {
  }

  lemma LowerSchemePrefix(scheme: string)
    ensures Lower(SchemePrefix(scheme)) == SchemePrefix(Lower(scheme))
  {
    if |scheme| > 0 {
      LowerAppend(scheme, "://");
      LowerFixes("://");
    }
  }

  lemma LowerHostText(p: HostParts)
    ensures Lower(HostText(p)) == HostText(HostParts(Lower(p.sub), Lower(p.main), Lower(p.tld)))
  {
    LowerFixes(".");
    LowerAppend(p.main, ".");
    LowerAppend(p.main + ".", p.tld);
    var apex := p.main + "." + p.tld;
    if |p.sub| > 0 {
      LowerAppend(p.sub, ".");
      LowerAppend(p.sub + ".", apex);
      assert HostText(p) == p.sub + "." + apex;
    } else {
      assert HostText(p) == apex;
    }
  }

  lemma LowerAssembled(c: Captures)
    ensures Lower(SchemePrefix(c.scheme) + HostText(HostParts(c.sub, c.main, c.tld)))
         == SchemePrefix(Lower(c.scheme)) + HostText(HostParts(Lower(c.sub), Lower(c.main), Lower(c.tld)))
  {
    LowerAppend(SchemePrefix(c.scheme), HostText(HostParts(c.sub, c.main, c.tld)));
    LowerSchemePrefix(c.scheme);
    LowerHostText(HostParts(c.sub, c.main, c.tld));
  }

  /**
   * The directory is the input's tail, and lower-casing what precedes it
   * gives back `getDomainWithoutDirectory()`.
   */
  lemma ParseRoundTrip(s: string, c: Captures)
    requires IsMatch(s, c)
    ensures var d := Parse(s);
      && |d.directory| <= |s|
      && s[|s| - |d.directory|..] == d.directory
      && Lower(s[..|s| - |d.directory|]) == DomainWithoutDirectory(d)
  {
    CapturesRoundTrip(s, c);
  }

  lemma CapturesRoundTrip(s: string, c: Captures)
    requires IsMatch(s, c)
    ensures |c.path| <= |s| && s[|s| - |c.path|..] == c.path
    ensures Lower(s[..|s| - |c.path|]) == DomainWithoutDirectory(FromCaptures(s, c))
  {
    var front := SchemePrefix(c.scheme) + HostText(HostParts(c.sub, c.main, c.tld));
    assert s == front + c.path;
    assert s[..|s| - |c.path|] == front;
    LowerAssembled(c);
    DomainWithoutDirectoryText(FromCaptures(s, c));
  }

  /** The tail of `s` from its first '/', or "" when it has none. */
  function FromFirstSlash(s: string): string {
    var i := IndexOf(s, '/');
    if i < 0 then "" else s[i..]
  }

  lemma FirstSlashAfterHost(host: string, path: string)
    requires AllHostChars(host) && IsPath(path)
    ensures FromFirstSlash(host + path) == path
  {
    var rest := host + path;
    var i := IndexOf(rest, '/');
    if |path| == 0 {
      assert rest == host;
      assert i < 0;
    } else {
      assert rest[|host|] == '/';
      assert i == |host|;
      assert rest[i..] == path;
    }
  }

  /**
   * The directory runs from the first '/' that follows the scheme separator;
   * without a protocol, from the input's first '/'.
   */
  lemma DirectoryFromFirstSlash(s: string, c: Captures)
    requires IsMatch(s, c)
    ensures var d := Parse(s);
      d.directory == FromFirstSlash(if |d.protocol| == 0 then s else s[|d.protocol| + 3..])
  {
    ParseIs(s, c);
    CapturesDirectory(s, c);
  }

  lemma CapturesDirectory(s: string, c: Captures)
    requires IsMatch(s, c)
    ensures c.path == FromFirstSlash(if |c.scheme| == 0 then s else s[|c.scheme| + 3..])
  {
    var p := HostParts(c.sub, c.main, c.tld);
    HostTextChars(p);
    FirstSlashAfterHost(HostText(p), c.path);
    AppendAssoc(SchemePrefix(c.scheme), HostText(p), c.path);
    if |c.scheme| > 0 {
      assert s[|c.scheme| + 3..] == HostText(p) + c.path;
    } else {
      assert s == HostText(p) + c.path;
    }
  }

  lemma DotsInHost(p: HostParts)
    requires IsHostSplit(HostText(p), p)
    ensures |p.sub| > 0 <==> multiset(HostText(p))['.'] >= 2
  {
    assert '.' !in p.main && '.' !in p.tld;
    var apex := p.main + "." + p.tld;
    assert multiset(apex)['.'] == 1;
    if |p.sub| > 0 {
      assert HostText(p) == p.sub + "." + apex;
      assert multiset(HostText(p))['.'] == multiset(p.sub)['.'] + 2;
    } else {
      assert HostText(p) == apex;
    }
  }

  lemma NoColonInHost(host: string)
    requires AllHostChars(host)
    ensures ':' !in host
  {
  }

  lemma SeparatorsInFront(c: Captures)
    requires IsMatch(Assemble(c), c)
    ensures var front := SchemePrefix(c.scheme) + HostText(HostParts(c.sub, c.main, c.tld));
      && (|c.scheme| > 0 <==> ':' in front)
      && (|c.sub| > 0 <==> multiset(front)['.'] >= 2)
  {
    var p := HostParts(c.sub, c.main, c.tld);
    var host := HostText(p);
    HostTextChars(p);
    NoColonInHost(host);
    DotsInHost(p);
    if |c.scheme| > 0 {
      var front := c.scheme + "://" + host;
      assert front[|c.scheme|] == ':';
      assert '.' !in c.scheme;
      assert multiset(front)['.'] == multiset(c.scheme)['.'] + multiset("://")['.'] + multiset(host)['.'];
    }
  }

  /**
   * "://" is written exactly when there is a protocol, and the subdomain's
   * "." exactly when there is a subdomain: the input shows a ':' before its
   * directory iff the protocol is non-empty, and two or more dots iff the
   * subdomain is non-empty.
   */
  lemma SeparatorsShowParts(s: string, c: Captures)
    requires IsMatch(s, c)
    ensures var d := Parse(s); var front := s[..|s| - |d.directory|];
      && (|d.protocol| > 0 <==> ':' in front)
      && (|d.subDomain| > 0 <==> multiset(front)['.'] >= 2)
  {
    var front := SchemePrefix(c.scheme) + HostText(HostParts(c.sub, c.main, c.tld));
    assert s[..|s| - |c.path|] == front by {
      assert s == front + c.path;
    }
    SeparatorsInFront(c);
  }

  predicate NoUpper(s: string) { forall i :: 0 <= i < |s| ==> !IsUpper(s[i]) }

  /** A match whose captures are already lower-case parses to exactly those captures. */
  lemma ParseLowerMatch(t: string, c: Captures)
    requires IsMatch(t, c)
    requires NoUpper(c.scheme) && NoUpper(c.sub) && NoUpper(c.main) && NoUpper(c.tld)
    ensures Parse(t) == Valid(t, c.scheme, c.sub, c.main, c.tld, c.path)
  {
    LowerFixes(c.scheme);
    LowerFixes(c.sub);
    LowerFixes(c.main);
    LowerFixes(c.tld);
  }

  /** The lower-cased captures of a match, with the directory dropped, match again. */
  lemma LoweredCapturesMatch(s: string, c: Captures)
    requires IsMatch(s, c)
    ensures var l := Captures(Lower(c.scheme), Lower(c.sub), Lower(c.main), Lower(c.tld), "");
      IsMatch(Assemble(l), l) && NoUpper(l.scheme) && NoUpper(l.sub) && NoUpper(l.main) && NoUpper(l.tld)
  {
    LowerKeepsClasses(c.scheme);
    LowerKeepsClasses(c.sub);
    LowerKeepsClasses(c.main);
    LowerKeepsClasses(c.tld);
  }

  lemma FrontParses(l: Captures)
    requires IsMatch(Assemble(l), l) && |l.path| == 0
    requires NoUpper(l.scheme) && NoUpper(l.sub) && NoUpper(l.main) && NoUpper(l.tld)
    ensures var t := SchemePrefix(l.scheme) + HostText(HostParts(l.sub, l.main, l.tld));
      Parse(t) == Valid(t, l.scheme, l.sub, l.main, l.tld, "")
  {
    var t := SchemePrefix(l.scheme) + HostText(HostParts(l.sub, l.main, l.tld));
    assert Assemble(l) == t + l.path;
    assert t + l.path == t;
    ParseLowerMatch(t, l);
  }

  /** Parsing the domain without its directory gives back the same parts. */
  lemma ReparseWithoutDirectory(s: string, c: Captures)
    requires IsMatch(s, c)
    ensures var d := Parse(s); var t := DomainWithoutDirectory(d);
      Parse(t) == Valid(t, d.protocol, d.subDomain, d.mainDomain, d.tld, "")
  {
    var l := Captures(Lower(c.scheme), Lower(c.sub), Lower(c.main), Lower(c.tld), "");
    LoweredCapturesMatch(s, c);
    DomainWithoutDirectoryText(Parse(s));
    FrontParses(l);
  }

  lemma ApexParses(main: string, tld: string)
    requires |main| > 0 && AllLabelChars(main) && NoUpper(main)
    requires |tld| > 0 && AllLabelChars(tld) && NoUpper(tld)
    ensures Parse(main + "." + tld) == Valid(main + "." + tld, "", "", main, tld, "")
  {
    var a := main + "." + tld;
    var c := Captures("", "", main, tld, "");
    assert Assemble(c) == a;
    ParseLowerMatch(a, c);
  }

  /** The apex domain parses as itself: no protocol, no subdomain, no directory. */
  lemma ReparseApex(s: string, c: Captures)
    requires IsMatch(s, c)
    ensures var d := Parse(s); var a := ApexDomain(d);
      Parse(a) == Valid(a, "", "", d.mainDomain, d.tld, "")
  {
    LoweredCapturesMatch(s, c);
    ApexParses(Lower(c.main), Lower(c.tld));
  }
}

=== FILE: rating.dfy ===
/**
 * `DomainRater`: parses its input as a `Domain` and, when the domain is
 * valid, rates its protocol, subdomain, main domain and TLD in that order,
 * each pass opening with a header and adding its points to the score.
 */
module Rating {
  import opened Ascii
  import opened Decimal
  import opened Strings
  import opened Parsing
  import opened Log
  import opened Names

  // The texts of the verdict messages.

  const NoProtocolText: string := "No web protocol specified."
  const HttpText: string := "Unsecured connection protocol."
  const HttpsText: string := "Secured connection protocol."
  const FtpText: string := "File transfer protocol."
  const UnknownProtocolText: string := "Unknown protocol."
  const MalformedText: string := "Malformed subdomain."
  const NoSubDomainText: string := "There is no subdomain."
  const DefaultSubDomainText: string := "Default subdomain."
  const TldLengthText: string := "Number of characters in TLD"
  const CommercialText: string := "Extremely well-known commercial TLD with a long reputation. Highly desirable."
  const NetworkText: string := "Well-known network or organization TLD. Desirable."
  const OfficialText: string := "Official governmental or educational TLD. Highly desirable, but only issued by the US government."
  const RestrictedText: string := "Country-level TLD with some restrictions. Usually these are safe and reputable."
  const OpenCountryText: string := "Country-level TLD with few or no restrictions. These often are marked as spam websites."
  const UnknownTldText: string := "Fun or unknown TLD. Not desirable as these websites may be flagged as spam by some search engines."

  // ---------------------------------------------------------------- protocol

  /** Only plain `http` costs points. */
  function ProtocolScore(protocol: string): nat {
    if protocol == "http" then 5 else 0
  }

  /** The `switch` of `#rateProtocol`. */
  function ProtocolVerdict(protocol: string): (m: Message)
    ensures m.Detail? && m.delta == ProtocolScore(protocol)
  {
    if |protocol| == 0 then Detail(0, NoProtocolText)
    else match protocol
      case "http" => Detail(5, HttpText)
      case "https" => Detail(0, HttpsText)
      case "ftp" => Detail(0, FtpText)
      case _ => Detail(0, UnknownProtocolText)
  }

  /** `#rateProtocol`: a header and exactly one verdict. */
  function ProtocolPass(protocol: string): (ms: seq<Message>)
    ensures |ms| == 2 && Section(ms) && ms[0] == Header("Domain Protocol (" + protocol + ")")
    ensures NonNegative(ms) && Total(ms) == ProtocolScore(protocol)
  {
    var h := Header("Domain Protocol (" + protocol + ")");
    var v := ProtocolVerdict(protocol);
    TotalAppend([h], [v]);
    assert [h] + [v] == [h, v];
    [h, v]
  }

  // --------------------------------------------------------------- subdomain

  /** A dot-separated part of the subdomain: empty parts are reported, others rated as names. */
  function PartMessages(part: string): (ms: seq<Message>)
    ensures NonNegative(ms) && AllDetails(ms)
  {
    if |part| == 0 then [Detail(0, MalformedText)] else NameMessages(part)
  }

  /**
   * An empty part gets one 0-point `Malformed subdomain.` detail; any other
   * part is rated as a name, opening with its length message.
   */
  lemma PartMessagesShape(part: string)
    ensures |part| == 0 ==> PartMessages(part) == [Detail(0, MalformedText)]
    ensures |part| > 0 ==> |PartMessages(part)| > 0 && PartMessages(part)[0] == LengthMessage(part)
    ensures Total(PartMessages(part)) == NameScore(part)
  {
    if |part| == 0 {
      EmptyNameScore();
    } else {
      NameTotal(part);
    }
  }

  /** The loop over the parts, in order. */
  function PartsMessages(parts: seq<string>): (ms: seq<Message>)
    ensures NonNegative(ms) && AllDetails(ms)
  {
    if |parts| == 0 then []
    else
      var first := PartMessages(parts[0]);
      var rest := PartsMessages(parts[1..]);
      NonNegativeAppend(first, rest);
      AllDetailsAppend(first, rest);
      first + rest
  }

  lemma {:induction false} PartsMessagesAppend(a: seq<string>, b: seq<string>)
    ensures PartsMessages(a + b) == PartsMessages(a) + PartsMessages(b)
  {
    if |a| > 0 {
      assert (a + b)[0] == a[0];
      assert (a + b)[1..] == a[1..] + b;
      PartsMessagesAppend(a[1..], b);
    } else {
      assert a + b == b;
    }
  }

  /** The parts are rated in order: part `n`'s messages come after those of the parts before it. */
  lemma {:induction false} PartsMessagesAt(parts: seq<string>, n: nat)
    requires n < |parts|
    ensures PartsMessages(parts)
      == PartsMessages(parts[..n]) + PartMessages(parts[n]) + PartsMessages(parts[n + 1..])
  {
    var tail := [parts[n]] + parts[n + 1..];
    assert parts == parts[..n] + tail;
    PartsMessagesAppend(parts[..n], tail);
    assert tail[0] == parts[n] && tail[1..] == parts[n + 1..];
    assert PartsMessages(tail) == PartMessages(parts[n]) + PartsMessages(parts[n + 1..]);
  }

  /** The `switch` of `#rateSubDomain`. */
  function SubDomainVerdict(sub: string): (ms: seq<Message>)
    ensures NonNegative(ms) && AllDetails(ms)
  {
    if |sub| == 0 then [Detail(0, NoSubDomainText)]
    else if sub == "www" then [Detail(0, DefaultSubDomainText)]
    else PartsMessages(Split(sub, '.'))
  }

  /** `#rateSubDomain` */
  function SubDomainPass(sub: string): (ms: seq<Message>)
    ensures Section(ms) && ms[0] == Header("Subdomain (" + sub + ")")
    ensures NonNegative(ms)
  {
    var verdict := SubDomainVerdict(sub);
    NonNegativeAppend([Header("Subdomain (" + sub + ")")], verdict);
    HeaderThenDetails(Header("Subdomain (" + sub + ")"), verdict);
    [Header("Subdomain (" + sub + ")")] + verdict
  }

  /**
   * No subdomain and `www` each get one 0-point detail after the header; any
   * other subdomain gets the messages of its dot-separated parts.
   */
  lemma SubDomainPassShape(sub: string)
    ensures |sub| == 0 || sub == "www" ==>
      |SubDomainPass(sub)| == 2 && SubDomainPass(sub)[1].Detail? && SubDomainPass(sub)[1].delta == 0
    ensures |sub| > 0 && sub != "www" ==> SubDomainPass(sub)[1..] == PartsMessages(Split(sub, '.'))
  {
    var h := [Header("Subdomain (" + sub + ")")];
    assert (h + SubDomainVerdict(sub))[1..] == SubDomainVerdict(sub);
  }

  /** The summed scores of some names. */
  function PartsScore(parts: seq<string>): int {
    if |parts| == 0 then 0 else NameScore(parts[0]) + PartsScore(parts[1..])
  }

  /**
   * No subdomain and `www` are free; any other subdomain costs the scores of its
   * dot-separated parts, an empty part costing nothing.
   */
  function SubDomainScore(sub: string): int {
    if |sub| == 0 || sub == "www" then 0 else PartsScore(Split(sub, '.'))
  }

  lemma {:induction false} PartsTotal(parts: seq<string>)
    ensures Total(PartsMessages(parts)) == PartsScore(parts)
  {
    if |parts| > 0 {
      TotalAppend(PartMessages(parts[0]), PartsMessages(parts[1..]));
      PartsTotal(parts[1..]);
      if |parts[0]| == 0 {
        EmptyNameScore();
      } else {
        NameTotal(parts[0]);
      }
    }
  }

  lemma SubDomainTotal(sub: string)
    ensures Total(SubDomainPass(sub)) == SubDomainScore(sub)
  {
    TotalAppend([Header("Subdomain (" + sub + ")")], SubDomainVerdict(sub));
    if |sub| > 0 && sub != "www" {
      PartsTotal(Split(sub, '.'));
    }
  }

  // ------------------------------------------------------------- main domain

  /** `#rateMainDomain` */
  function MainDomainPass(main: string): (ms: seq<Message>)
    ensures |ms| > 1 && Section(ms) && ms[0] == Header("Main Domain (" + main + ")")
    ensures NonNegative(ms)
  {
    NonNegativeAppend([Header("Main Domain (" + main + ")")], NameMessages(main));
    HeaderThenDetails(Header("Main Domain (" + main + ")"), NameMessages(main));
    [Header("Main Domain (" + main + ")")] + NameMessages(main)
  }

  /** After its header the main-domain pass posts `#rateName`'s length message, and the hyphen warning iff the name has a hyphen at an edge. */
  lemma MainDomainPassShape(main: string)
    ensures MainDomainPass(main)[1] == LengthMessage(main)
    ensures Detail(0, HyphenWarning) in MainDomainPass(main) <==> HyphenAtEdge(main)
  {
    HyphenWarned(main);
    assert MainDomainPass(main)[1..] == NameMessages(main);
  }

  lemma MainDomainTotal(main: string)
    ensures Total(MainDomainPass(main)) == NameScore(main)
  {
    TotalAppend([Header("Main Domain (" + main + ")")], NameMessages(main));
    NameTotal(main);
  }

  // ------------------------------------------------------------------- TLD

  /** The TLDs issued only to US institutions. */
  const OfficialTlds: set<string> := {"edu", "gov", "mil", "int"}

  /** The country codes `#rateTLD` treats as restricted. */
  const RestrictedCountryCodes: set<string> := {
    "au", "br", "ca", "eu", "fr", "ie", "it", "mc", "mg", "mo",
    "my", "no", "re", "sa", "sk", "sm", "ua", "uk", "us", "va"}

  /**
   * What the TLD itself costs: nothing for `com` and the official TLDs, 5 for
   * `net` and `org`, 10 for a restricted country code, 35 for any other
   * two-character TLD and 45 for everything else.
   */
  function TldScore(tld: string): nat {
    if tld == "com" || tld in OfficialTlds then 0
    else if tld in {"net", "org"} then 5
    else if tld in RestrictedCountryCodes then 10
    else if |tld| == 2 then 35
    else 45
  }

  /** The `switch` of `#rateTLD`. */
  function TldVerdict(tld: string): (m: Message)
    ensures m.Detail? && m.delta == TldScore(tld)
  {
    match tld
    case "com" =>
      Detail(0, CommercialText)
    case "net" | "org" =>
      Detail(5, NetworkText)
    case "edu" | "gov" | "mil" | "int" =>
      Detail(0, OfficialText)
    case "au" | "br" | "ca" | "eu" | "fr" | "ie" | "it" | "mc" | "mg" | "mo"
       | "my" | "no" | "re" | "sa" | "sk" | "sm" | "ua" | "uk" | "us" | "va" =>
      Detail(10, RestrictedText)
    case _ =>
      if |tld| == 2 then
        Detail(35, OpenCountryText)
      else
        Detail(45, UnknownTldText)
  }

  /** `#rateTLD`: a header, a point per character, then the verdict. */
  function TldPass(tld: string): (ms: seq<Message>)
    ensures |ms| == 3 && Section(ms) && ms[0] == Header("Top Level Domain (" + tld + ")")
    ensures NonNegative(ms) && Total(ms) == |tld| + TldScore(tld)
  {
    var h := Header("Top Level Domain (" + tld + ")");
    var l := Detail(|tld|, TldLengthText);
    var v := TldVerdict(tld);
    TotalAppend([h], [l]);
    TotalAppend([h, l], [v]);
    assert [h] + [l] == [h, l];
    assert [h, l] + [v] == [h, l, v];
    [h, l, v]
  }

  // ------------------------------------------------------------------ rater

  const InvalidPattern: string := "Invalid domain name pattern."

  /** What the constructor posts for a parsed domain. */
  function RatingLog(d: Domain): (ms: seq<Message>)
    ensures |ms| > 0 && ms[0].Header?
    ensures NonNegative(ms)
  {
    match d
    case Invalid => [Header(InvalidPattern)]
    case Valid(_, protocol, sub, main, tld, _) =>
      var a := [Header(DomainWithoutDirectory(d))] + ProtocolPass(protocol);
      var b := SubDomainPass(sub);
      var c := MainDomainPass(main);
      var e := TldPass(tld);
      NonNegativeAppend([Header(DomainWithoutDirectory(d))], ProtocolPass(protocol));
      NonNegativeAppend(a, b);
      NonNegativeAppend(a + b, c);
      NonNegativeAppend(a + b + c, e);
      a + b + c + e
  }

  /**
   * The constructor's sections come in a fixed order: the domain without its
   * directory, then protocol, subdomain, main domain and TLD; an invalid domain
   * gets the one invalid header.
   */
  lemma RatingLogSections(d: Domain)
    ensures d.Invalid? ==> HeaderTexts(RatingLog(d)) == [InvalidPattern]
    ensures d.Valid? ==> HeaderTexts(RatingLog(d)) == [
      DomainWithoutDirectory(d),
      "Domain Protocol (" + d.protocol + ")",
      "Subdomain (" + d.subDomain + ")",
      "Main Domain (" + d.mainDomain + ")",
      "Top Level Domain (" + d.tld + ")"]
  {
    if d.Invalid? {
      SectionHeaderTexts([Header(InvalidPattern)]);
    } else {
      FiveSections([Header(DomainWithoutDirectory(d))], ProtocolPass(d.protocol),
        SubDomainPass(d.subDomain), MainDomainPass(d.mainDomain), TldPass(d.tld));
    }
  }

  /** The private state of a rater once its constructor has run. */
  datatype DomainRater = DomainRater(domain: Domain, score: int, messages: seq<string>)

  /** The constructor's work once the input is parsed. */
  function Rate(d: Domain): (r: DomainRater)
    ensures r.domain == d
    ensures r.score == Total(RatingLog(d)) && r.messages == RenderAll(RatingLog(d))
    ensures r.score >= 0
    ensures |r.messages| >= 3
    ensures d.Invalid? ==> r.score == 0 && r.messages == ["", InvalidPattern, ""]
    ensures d.Valid? ==> r.messages[..3] == ["", DomainWithoutDirectory(d), ""]
  {
    var log := RatingLog(d);
    var report := Replay(Report(0, []), log);
    NonNegativeTotal(log);
    RenderAllAppend([log[0]], log[1..]);
    assert [log[0]] + log[1..] == log;
    DomainRater(d, report.score, report.lines)
  }

  /** `new DomainRater(input)`; `getScore` and `getMessages` read the last two fields. */
  function NewRater(input: string): (r: DomainRater)
    ensures r.domain == Parse(input)
    ensures r.score >= 0
    ensures r.domain.Invalid? ==> r.score == 0 && r.messages == ["", InvalidPattern, ""]
  {
    Rate(Parse(input))
  }

  /** The score of a valid domain, pass by pass. */
  lemma ScoreBreakdown(d: Domain)
    requires d.Valid?
    ensures Rate(d).score
      == ProtocolScore(d.protocol) + SubDomainScore(d.subDomain) + NameScore(d.mainDomain)
       + |d.tld| + TldScore(d.tld)
  {
    var a := [Header(DomainWithoutDirectory(d))] + ProtocolPass(d.protocol);
    var b := SubDomainPass(d.subDomain);
    var c := MainDomainPass(d.mainDomain);
    var e := TldPass(d.tld);
    assert RatingLog(d) == a + b + c + e;
    TotalAppend([Header(DomainWithoutDirectory(d))], ProtocolPass(d.protocol));
    TotalAppend(a, b);
    TotalAppend(a + b, c);
    TotalAppend(a + b + c, e);
    SubDomainTotal(d.subDomain);
    MainDomainTotal(d.mainDomain);
  }

  /** `getDomain` */
  function GetDomain(r: DomainRater): string {
    if r.domain.Valid? then ApexDomain(r.domain) else "Invalid domain."
  }

  /** Rating the apex domain again names the same apex domain: `getDomain` is idempotent. */
  lemma GetDomainIdempotent(input: string, c: Captures)
    requires IsMatch(input, c)
    ensures var apex := GetDomain(NewRater(input));
      Parse(apex).Valid? && GetDomain(NewRater(apex)) == apex
  {
    ReparseApex(input, c);
  }

  /** An input the pattern refuses gets only the invalid header and no points, and `getDomain` says so. */
  lemma InvalidInput(input: string)
    requires forall c :: !IsMatch(input, c)
    ensures var r := NewRater(input);
      && r.score == 0 && r.messages == ["", InvalidPattern, ""]
      && GetDomain(r) == "Invalid domain."
  {
  }

  /** `getPattern` reports an input the pattern refuses as invalid. */
  lemma InvalidInputPattern(input: string)
    requires forall c :: !IsMatch(input, c)
    ensures GetPattern(NewRater(input)) == "Invalid domain."
  {
  }

  /** An input the pattern accepts opens with a header naming it without its directory. */
  lemma ValidInput(input: string, c: Captures)
    requires IsMatch(input, c)
    ensures NewRater(input).messages[..3] == ["", Lower(SchemePrefix(c.scheme) + HostText(HostParts(c.sub, c.main, c.tld))), ""]
  {
    CapturesRoundTrip(input, c);
  }

  /** For an input the pattern accepts, `getDomain` is its lower-cased main domain and TLD. */
  lemma ValidInputDomain(input: string, c: Captures)
    requires IsMatch(input, c)
    ensures GetDomain(NewRater(input)) == Lower(c.main) + "." + Lower(c.tld)
  {
    CapturesRoundTrip(input, c);
  }

  // ---------------------------------------------------------------- pattern

  /** Every letter, of either case, replaced by `L`. */
  function LettersToL(s: string): string {
    seq(|s|, i requires 0 <= i < |s| => if IsLetter(s[i]) then 'L' else s[i])
  }

  /** Every digit replaced by `N`. */
  function DigitsToN(s: string): string {
    seq(|s|, i requires 0 <= i < |s| => if IsDigit(s[i]) then 'N' else s[i])
  }

  /**
   * The two replacements in the order `getPattern` applies them: the shape
   * marks each letter `L`, each digit `N`, and keeps everything else.
   */
  function Shape(s: string): (r: string)
    ensures |r| == |s|
    ensures forall i :: 0 <= i < |s| ==> (r[i] == 'L' <==> IsLetter(s[i]))
    ensures forall i :: 0 <= i < |s| ==> (r[i] == 'N' <==> IsDigit(s[i]))
    ensures forall i :: 0 <= i < |s| && !IsLetter(s[i]) && !IsDigit(s[i]) ==> r[i] == s[i]
  {
    DigitsToN(LettersToL(s))
  }

  /** The part of the pattern before the dot. */
  function PatternPrefix(main: string): string {
    if |main| > 0 && AllLetters(main) then NatToString(|main|) + "L"
    else if |main| > 0 && AllDigits(main) then NatToString(|main|) + "N"
    else Shape(main)
  }

  /** The pattern of a domain. */
  function Pattern(d: Domain): string {
    match d
    case Invalid => "Invalid domain."
    case Valid(_, _, _, main, tld, _) => PatternPrefix(main) + "." + tld
  }

  /** `getPattern` */
  function GetPattern(r: DomainRater): string {
    Pattern(r.domain)
  }

  /**
   * A pattern read back: a count followed by the one class mark every
   * character shares, or a shape with one mark per character; then the TLD.
   */
  datatype PatternRead =
    | Counted(length: nat, mark: char, tld: string)
    | Shaped(shape: string, tld: string)
    | Unreadable

  /** The main-domain length a reading stands for. */
  function ReadLength(r: PatternRead): nat {
    match r
    case Counted(n, _, _) => n
    case Shaped(shape, _) => |shape|
    case Unreadable => 0
  }

  /** Read a pattern prefix: a leading digit means a count and a class mark. */
  function ReadPrefix(prefix: string, tld: string): PatternRead {
    if |prefix| > 0 && IsDigit(prefix[0]) && IsDecimal(prefix[..|prefix| - 1])
    then Counted(StringToNat(prefix[..|prefix| - 1]), prefix[|prefix| - 1], tld)
    else Shaped(prefix, tld)
  }

  /** Read a pattern back, splitting it at its last dot. */
  function ReadPattern(p: string): PatternRead {
    var k := LastIndex(p, '.');
    if k < 0 then Unreadable else ReadPrefix(p[..k], p[k + 1..])
  }

  /** What a main domain's pattern prefix must read back as. */
  function ExpectedRead(main: string, tld: string): PatternRead {
    if AllLetters(main) then Counted(|main|, 'L', tld)
    else if AllDigits(main) then Counted(|main|, 'N', tld)
    else Shaped(Shape(main), tld)
  }

  lemma PrefixReads(main: string, tld: string)
    requires |main| > 0 && forall i :: 0 <= i < |main| ==> IsLowerLabelChar(main[i])
    ensures forall i :: 0 <= i < |PatternPrefix(main)| ==> PatternPrefix(main)[i] != '.'
    ensures ReadPrefix(PatternPrefix(main), tld) == ExpectedRead(main, tld)
  {
    var p := PatternPrefix(main);
    if AllLetters(main) || AllDigits(main) {
      var n := NatToString(|main|);
      assert p[..|p| - 1] == n;
      NatToStringRoundTrip(|main|);
    } else {
      assert !IsDigit(p[0]);
    }
  }

  /**
   * The pattern of a parsed domain reads back as its TLD and, before the dot,
   * the main domain's length with `L` when it is all letters, with `N` when it
   * is all digits, and otherwise its shape; `Parse` guarantees the shape
   * required here.
   */
  lemma PatternRoundTrip(d: Domain)
    requires d.Valid? && WellFormed(d)
    ensures ReadPattern(Pattern(d)) == ExpectedRead(d.mainDomain, d.tld)
    ensures ReadLength(ReadPattern(Pattern(d))) == |d.mainDomain|
  {
    var prefix := PatternPrefix(d.mainDomain);
    var p := prefix + "." + d.tld;
    PrefixReads(d.mainDomain, d.tld);
    assert p[|prefix|] == '.';
    assert forall j :: |prefix| < j < |p| ==> p[j] == d.tld[j - |prefix| - 1];
    LastIndexUnique(p, '.', |prefix|);
    assert p[..|prefix|] == prefix;
    assert p[|prefix| + 1..] == d.tld;
  }

  /** For an input the pattern accepts, `getPattern` reads back as its lower-cased main domain's pattern and its lower-cased TLD. */
  lemma ValidInputPattern(input: string, c: Captures)
    requires IsMatch(input, c)
    ensures ReadPattern(GetPattern(NewRater(input))) == ExpectedRead(Lower(c.main), Lower(c.tld))
  {
    ParseIs(input, c);
    FromCapturesWellFormed(input, c);
    PatternRoundTrip(Parse(input));
  }

  /** The TLD pass's length line is worth one point per character, and its verdict the table's delta. */
  lemma TldPassShape(tld: string)
    ensures TldPass(tld)[1].delta == |tld| && TldPass(tld)[2].delta == TldScore(tld)
  {
  }

  /** Every TLD of two characters that is not a restricted country code costs 2 + 35 points. */
  lemma UnlistedCountryCode(tld: string)
    requires |tld| == 2 && tld !in RestrictedCountryCodes
    ensures Total(TldPass(tld)) == 37
  {
    assert tld != "com" && tld !in OfficialTlds && tld !in {"net", "org"} by {
      assert forall t :: t in OfficialTlds + {"com", "net", "org"} ==> |t| == 3;
    }
    assert TldScore(tld) == 35;
  }
}

=== FILE: runs.dfy ===
/**
 * The statistics `#rateName` gathers about a name: the runs that
 * `/[aeiouy]{3,}/ig` and `/[bcdfghjklmnpqrstvwxz]{3,}/ig` find with
 * `matchAll`, and the number of characters in each of the four weighted
 * classes.
 */
module Runs {
  import opened Ascii
  import opened Strings

  // The character classes the rating looks for, each matched case-insensitively.

  /** `[aeiouy]` */
  predicate IsVowel(c: char) { ToLower(c) in {'a', 'e', 'i', 'o', 'u', 'y'} }

  /** `[bcdfghjklmnpqrstvwxz]`: every other letter, `y` excepted. */
  predicate IsConsonant(c: char) {
    ToLower(c) in {'b', 'c', 'd', 'f', 'g', 'h', 'j', 'k', 'l', 'm', 'n', 'p', 'q', 'r', 's', 't', 'v', 'w', 'x', 'z'}
  }

  /** `[etaoinshrdl]` */
  predicate IsCheap(c: char) { ToLower(c) in {'e', 't', 'a', 'o', 'i', 'n', 's', 'h', 'r', 'd', 'l'} }

  /** `[cumwfgyp]` */
  predicate IsMedium(c: char) { ToLower(c) in {'c', 'u', 'm', 'w', 'f', 'g', 'y', 'p'} }

  /** `[bvkxjqz]` */
  predicate IsExpensive(c: char) { ToLower(c) in {'b', 'v', 'k', 'x', 'j', 'q', 'z'} }

  /** `[0-9\-]` */
  predicate IsSpecial(c: char) { IsDigit(c) || c == '-' }

  /** A stretch `s[start..end]` of a name. */
  datatype Span = Span(start: nat, end: nat)

  /**
   * `s[r.start..r.end]` is a maximal block of characters satisfying `k`, at least three
   * long: exactly what a global `{3,}` pattern matches, since the scan
   * resumes after each greedy match and no match can begin inside a block.
   */
  predicate IsRun(s: string, k: char -> bool, r: Span) {
    && r.start + 3 <= r.end <= |s|
    && (forall m :: r.start <= m < r.end ==> k(s[m]))
    && (r.start == 0 || !k(s[r.start - 1]))
    && (r.end == |s| || !k(s[r.end]))
  }

  /** Where the block of `k` characters that starts at `i` ends. */
  function BlockEnd(s: string, k: char -> bool, i: nat): (j: nat)
    requires i <= |s|
    ensures i <= j <= |s|
    ensures j == |s| || !k(s[j])
    decreases |s| - i
  {
    if i == |s| || !k(s[i]) then i else BlockEnd(s, k, i + 1)
  }

  /** Every character from `i` up to the block's end is in the class. */
  lemma {:induction false} BlockEndSpan(s: string, k: char -> bool, i: nat)
    requires i <= |s|
    ensures forall m :: i <= m < BlockEnd(s, k, i) ==> k(s[m])
    decreases |s| - i
  {
    if i < |s| && k(s[i]) {
      BlockEndSpan(s, k, i + 1);
    }
  }

  /** The runs at or after `i`, in order; `i` never falls inside a block. */
  function RunsFrom(s: string, k: char -> bool, i: nat): (rs: seq<Span>)
    requires i <= |s|
    requires i == 0 || !k(s[i - 1])
    ensures forall n :: 0 <= n < |rs| ==> i <= rs[n].start && rs[n].start + 3 <= rs[n].end <= |s|
    decreases |s| - i
  {
    if i == |s| then []
    else if !k(s[i]) then RunsFrom(s, k, i + 1)
    else
      var j := BlockEnd(s, k, i);
      var rest := if j == |s| then [] else RunsFrom(s, k, j + 1);
      if j - i >= 3 then [Span(i, j)] + rest else rest
  }

  /**
   * The same runs, told by where their block ends: a span that starts a block
   * and stops where the block stops. No quantifier, so the proofs below use it.
   */
  predicate BlockRun(s: string, k: char -> bool, r: Span) {
    && r.start + 3 <= r.end <= |s|
    && (r.start == 0 || !k(s[r.start - 1]))
    && BlockEnd(s, k, r.start) == r.end
  }

  /** The two descriptions of a run agree. */
  lemma BlockRunIsRun(s: string, k: char -> bool, r: Span)
    ensures BlockRun(s, k, r) <==> IsRun(s, k, r)
  {
    if r.start <= |s| {
      BlockEndSpan(s, k, r.start);
    }
  }

  /** Every listed span is a run. */
  predicate AllRuns(s: string, k: char -> bool, rs: seq<Span>) {
    forall n :: 0 <= n < |rs| ==> BlockRun(s, k, rs[n])
  }

  /** The spans come left to right without touching. */
  predicate Ordered(rs: seq<Span>) {
    forall n :: 0 < n < |rs| ==> rs[n - 1].end < rs[n].start
  }

  /** Everything `RunsFrom` lists is a run, and the runs come left to right. */
  lemma {:induction false} RunsFromSound(s: string, k: char -> bool, i: nat)
    requires i <= |s|
    requires i == 0 || !k(s[i - 1])
    ensures AllRuns(s, k, RunsFrom(s, k, i)) && Ordered(RunsFrom(s, k, i))
    decreases |s| - i
  {
    if i == |s| {
    } else if !k(s[i]) {
      RunsFromSound(s, k, i + 1);
      SkipSound(s, k, i);
    } else if BlockEnd(s, k, i) < |s| {
      RunsFromSound(s, k, BlockEnd(s, k, i) + 1);
      BlockSound(s, k, i);
    } else {
      RunsFromLastBlock(s, k, i);
    }
  }

  /** The soundness step over a character outside the class. */
  lemma SkipSound(s: string, k: char -> bool, i: nat)
    requires i < |s| && (i == 0 || !k(s[i - 1])) && !k(s[i])
    requires AllRuns(s, k, RunsFrom(s, k, i + 1)) && Ordered(RunsFrom(s, k, i + 1))
    ensures AllRuns(s, k, RunsFrom(s, k, i)) && Ordered(RunsFrom(s, k, i))
  {
    RunsFromSkip(s, k, i);
  }

  /** The soundness step over a block that does not reach the end. */
  lemma BlockSound(s: string, k: char -> bool, i: nat)
    requires i < |s| && (i == 0 || !k(s[i - 1])) && k(s[i])
    requires BlockEnd(s, k, i) < |s|
    requires AllRuns(s, k, RunsFrom(s, k, BlockEnd(s, k, i) + 1))
    requires Ordered(RunsFrom(s, k, BlockEnd(s, k, i) + 1))
    ensures AllRuns(s, k, RunsFrom(s, k, i)) && Ordered(RunsFrom(s, k, i))
  {
    if BlockEnd(s, k, i) - i >= 3 {
      LongBlockSound(s, k, i);
    } else {
      RunsFromShortBlock(s, k, i);
    }
  }

  lemma LongBlockSound(s: string, k: char -> bool, i: nat)
    requires i < |s| && (i == 0 || !k(s[i - 1])) && k(s[i])
    requires BlockEnd(s, k, i) < |s| && BlockEnd(s, k, i) - i >= 3
    requires AllRuns(s, k, RunsFrom(s, k, BlockEnd(s, k, i) + 1))
    requires Ordered(RunsFrom(s, k, BlockEnd(s, k, i) + 1))
    ensures AllRuns(s, k, RunsFrom(s, k, i)) && Ordered(RunsFrom(s, k, i))
  {
    var j := BlockEnd(s, k, i);
    var rest := RunsFrom(s, k, j + 1);
    RunsFromLongBlock(s, k, i);
    PrependRun(s, k, Span(i, j), rest);
  }

  /** A run placed before later runs keeps the list ordered. */
  lemma PrependRun(s: string, k: char -> bool, r: Span, rest: seq<Span>)
    requires BlockRun(s, k, r) && AllRuns(s, k, rest) && Ordered(rest)
    requires forall n :: 0 <= n < |rest| ==> r.end < rest[n].start
    ensures AllRuns(s, k, [r] + rest) && Ordered([r] + rest)
  {
    var rs := [r] + rest;
    forall n | 0 < n < |rs|
      ensures rs[n] == rest[n - 1]
    {
    }
  }

  /** All the runs a global `{3,}` class pattern finds in `s`, as spans, left to right. */
  function MatchRuns(s: string, k: char -> bool): seq<Span> {
    RunsFrom(s, k, 0)
  }

  /** Every run at or after `i` is listed. */
  lemma {:induction false} RunsFromComplete(s: string, k: char -> bool, i: nat, r: Span)
    requires i <= |s|
    requires i == 0 || !k(s[i - 1])
    requires BlockRun(s, k, r) && i <= r.start
    ensures r in RunsFrom(s, k, i)
    decreases |s| - i, 1
  {
    if !k(s[i]) {
      SkipComplete(s, k, i, r);
    } else if r.start == i {
      RunAtBlock(s, k, i, r);
    } else {
      BlockComplete(s, k, i, r);
    }
  }

  /** The completeness step over a character outside the class. */
  lemma {:induction false} SkipComplete(s: string, k: char -> bool, i: nat, r: Span)
    requires i < |s| && (i == 0 || !k(s[i - 1])) && !k(s[i])
    requires BlockRun(s, k, r) && i <= r.start
    ensures r in RunsFrom(s, k, i)
    decreases |s| - i, 0
  {
    RunStart(s, k, i, r);
    RunsFromComplete(s, k, i + 1, r);
    PassSkip(s, k, i, r);
  }

  /** The completeness step over a block that ends before the run starts. */
  lemma {:induction false} BlockComplete(s: string, k: char -> bool, i: nat, r: Span)
    requires i < |s| && (i == 0 || !k(s[i - 1])) && k(s[i])
    requires BlockRun(s, k, r) && i < r.start
    ensures r in RunsFrom(s, k, i)
    decreases |s| - i, 0
  {
    BlockBeforeRun(s, k, i, r);
    RunsFromComplete(s, k, BlockEnd(s, k, i) + 1, r);
    PassBlock(s, k, i, r);
  }

  /** The run that starts at a block is listed first. */
  lemma RunAtBlock(s: string, k: char -> bool, i: nat, r: Span)
    requires i < |s| && (i == 0 || !k(s[i - 1])) && k(s[i])
    requires BlockRun(s, k, r) && r.start == i
    ensures r in RunsFrom(s, k, i)
  {
    if BlockEnd(s, k, i) == |s| {
      RunsFromLastBlock(s, k, i);
    } else {
      RunsFromLongBlock(s, k, i);
      assert r in [r] + RunsFrom(s, k, BlockEnd(s, k, i) + 1);
    }
  }

  /** A run listed after a character outside the class is listed from that character too. */
  lemma PassSkip(s: string, k: char -> bool, i: nat, r: Span)
    requires i < |s| && (i == 0 || !k(s[i - 1])) && !k(s[i])
    requires r in RunsFrom(s, k, i + 1)
    ensures r in RunsFrom(s, k, i)
  {
    RunsFromSkip(s, k, i);
  }

  /** A run listed after a block is listed from the block's start too. */
  lemma PassBlock(s: string, k: char -> bool, i: nat, r: Span)
    requires i < |s| && (i == 0 || !k(s[i - 1])) && k(s[i])
    requires BlockEnd(s, k, i) < |s|
    requires r in RunsFrom(s, k, BlockEnd(s, k, i) + 1)
    ensures r in RunsFrom(s, k, i)
  {
    var j := BlockEnd(s, k, i);
    if j - i >= 3 {
      RunsFromLongBlock(s, k, i);
      assert r in [Span(i, j)] + RunsFrom(s, k, j + 1);
    } else {
      RunsFromShortBlock(s, k, i);
    }
  }

  lemma RunsFromSkip(s: string, k: char -> bool, i: nat)
    requires i < |s| && (i == 0 || !k(s[i - 1])) && !k(s[i])
    ensures RunsFrom(s, k, i) == RunsFrom(s, k, i + 1)
  {
  }

  /** A block of three or more, followed by more text, is listed before the rest. */
  lemma RunsFromLongBlock(s: string, k: char -> bool, i: nat)
    requires i < |s| && (i == 0 || !k(s[i - 1])) && k(s[i])
    requires BlockEnd(s, k, i) < |s| && BlockEnd(s, k, i) - i >= 3
    ensures RunsFrom(s, k, i) == [Span(i, BlockEnd(s, k, i))] + RunsFrom(s, k, BlockEnd(s, k, i) + 1)
  {
  }

  /** A block shorter than three, followed by more text, is passed over. */
  lemma RunsFromShortBlock(s: string, k: char -> bool, i: nat)
    requires i < |s| && (i == 0 || !k(s[i - 1])) && k(s[i])
    requires BlockEnd(s, k, i) < |s| && BlockEnd(s, k, i) - i < 3
    ensures RunsFrom(s, k, i) == RunsFrom(s, k, BlockEnd(s, k, i) + 1)
  {
  }

  /** A block that reaches the end is the last run, if it is long enough. */
  lemma RunsFromLastBlock(s: string, k: char -> bool, i: nat)
    requires i < |s| && (i == 0 || !k(s[i - 1])) && k(s[i])
    requires BlockEnd(s, k, i) == |s|
    ensures RunsFrom(s, k, i) == if |s| - i >= 3 then [Span(i, |s|)] else []
  {
  }

  /** A run that starts after the block opening at `i` starts after that block ends. */
  lemma BlockBeforeRun(s: string, k: char -> bool, i: nat, r: Span)
    requires i < |s| && k(s[i])
    requires BlockRun(s, k, r) && i < r.start
    ensures BlockEnd(s, k, i) < r.start && BlockEnd(s, k, i) < |s|
    ensures !k(s[BlockEnd(s, k, i)])
  {
    BlockEndSpan(s, k, i);
  }

  /** A run starts with a character of its class, so not at a character outside it. */
  lemma RunStart(s: string, k: char -> bool, i: nat, r: Span)
    requires i < |s| && !k(s[i])
    requires BlockRun(s, k, r) && i <= r.start
    ensures i + 1 <= r.start
  {
  }

  /**
   * The runs are exactly the maximal blocks of three or more `k` characters,
   * listed left to right without overlap.
   */
  lemma RunsExactly(s: string, k: char -> bool)
    ensures forall r :: r in MatchRuns(s, k) <==> IsRun(s, k, r)
    ensures forall n :: 0 < n < |MatchRuns(s, k)| ==> MatchRuns(s, k)[n - 1].end < MatchRuns(s, k)[n].start
  {
    RunsFromSound(s, k, 0);
    forall r
      ensures r in MatchRuns(s, k) <==> IsRun(s, k, r)
    {
      BlockRunIsRun(s, k, r);
      if BlockRun(s, k, r) {
        RunsFromComplete(s, k, 0, r);
      }
    }
  }

  /** The text of each run, as `matchAll` reports it. */
  function RunTexts(s: string, rs: seq<Span>): seq<string>
    requires forall n :: 0 <= n < |rs| ==> rs[n].start <= rs[n].end <= |s|
  {
    seq(|rs|, n requires 0 <= n < |rs| => s[rs[n].start..rs[n].end])
  }

  /** `t` is the text of some run of `k` characters in `s`. */
  ghost predicate IsRunText(s: string, k: char -> bool, t: string) {
    exists r :: IsRun(s, k, r) && t == s[r.start..r.end]
  }

  /** `matchAll` reports the text of every run, and nothing else. */
  lemma RunTextsExactly(s: string, k: char -> bool)
    ensures var ts := RunTexts(s, MatchRuns(s, k));
      && (forall n :: 0 <= n < |ts| ==> |ts[n]| >= 3 && IsRunText(s, k, ts[n]))
      && (forall r :: IsRun(s, k, r) ==> s[r.start..r.end] in ts)
  {
    var rs := MatchRuns(s, k);
    var ts := RunTexts(s, rs);
    RunsExactly(s, k);
    forall n | 0 <= n < |ts|
      ensures |ts[n]| >= 3 && IsRunText(s, k, ts[n])
    {
      assert rs[n] in rs;
    }
    forall r | IsRun(s, k, r)
      ensures s[r.start..r.end] in ts
    {
      var n :| 0 <= n < |rs| && rs[n] == r;
      assert ts[n] == s[r.start..r.end];
    }
  }

  /** The number of characters of `s` in class `k`. */
  function Count(s: string, k: char -> bool): (n: nat)
    ensures n <= |s|
  {
    if |s| == 0 then 0
    else Count(s[..|s| - 1], k) + (if k(s[|s| - 1]) then 1 else 0)
  }

  /** The positions of `s` holding a `k` character. */
  function Positions(s: string, k: char -> bool): set<int> {
    set i | 0 <= i < |s| && k(s[i])
  }

  /** Adding one character adds its position, if it is a `k` character. */
  lemma PositionsSnoc(t: string, c: char, k: char -> bool)
    ensures Positions(t + [c], k) == Positions(t, k) + (if k(c) then {|t|} else {})
  {
    var s := t + [c];
    forall i | i in Positions(s, k)
      ensures i in Positions(t, k) + (if k(c) then {|t|} else {})
    {
      if i < |t| {
        assert t[i] == s[i];
      }
    }
    forall i | i in Positions(t, k)
      ensures i in Positions(s, k)
    {
      assert t[i] == s[i];
    }
  }

  /** `Count` is the size of the set of positions holding a `k` character. */
  lemma {:induction false} CountIsPositions(s: string, k: char -> bool)
    ensures Count(s, k) == |Positions(s, k)|
  {
    if |s| > 0 {
      var t := s[..|s| - 1];
      CountIsPositions(t, k);
      assert s == t + [s[|s| - 1]];
      PositionsSnoc(t, s[|s| - 1], k);
      assert |t| !in Positions(t, k);
    }
  }

  /** Every character of a label falls in exactly one of the four weighted classes. */
  lemma WeightedClassesPartition(c: char)
    requires IsLabelChar(c)
    ensures (if IsCheap(c) then 1 else 0) + (if IsMedium(c) then 1 else 0)
          + (if IsExpensive(c) then 1 else 0) + (if IsSpecial(c) then 1 else 0) == 1
  {
  }

  /** On a label the four weighted counts add up to its length. */
  lemma {:induction false} WeightedCountsSum(s: string)
    requires AllLabelChars(s)
    ensures Count(s, IsCheap) + Count(s, IsMedium) + Count(s, IsExpensive) + Count(s, IsSpecial) == |s|
  {
    if |s| > 0 {
      WeightedCountsSum(s[..|s| - 1]);
      WeightedClassesPartition(s[|s| - 1]);
    }
  }
}

=== FILE: strings.dfy ===
/**
 * The JavaScript string and array operations the rater relies on, over
 * sequences: `indexOf`, `lastIndexOf`, `split` and `join`.
 */
module Strings {

  /** Concatenation regroups; proofs about reassembled strings call it by name. */
  lemma AppendAssoc<T>(a: seq<T>, b: seq<T>, c: seq<T>)
    ensures (a + b) + c == a + (b + c)
  {
  }

  /** Index of the last `c` in `s`, or -1. */
  function LastIndex(s: string, c: char): (r: int)
    ensures -1 <= r < |s|
    ensures 0 <= r ==> s[r] == c
    ensures forall j :: r < j < |s| ==> s[j] != c
  {
    if |s| == 0 then -1
    else if s[|s| - 1] == c then |s| - 1
    else LastIndex(s[..|s| - 1], c)
  }

  lemma LastIndexUnique(s: string, c: char, r: int)
    requires -1 <= r < |s|
    requires 0 <= r ==> s[r] == c
    requires forall j :: r < j < |s| ==> s[j] != c
    ensures LastIndex(s, c) == r
  {
  }

  /** `Array.prototype.join(sep)`. */
  function Join(parts: seq<string>, sep: string): string {
    if |parts| == 0 then ""
    else if |parts| == 1 then parts[0]
    else parts[0] + sep + Join(parts[1..], sep)
  }

  /** Index of the first `c` in `s`, or -1. */
  function IndexOf(s: string, c: char): (r: int)
    ensures -1 <= r < |s|
    ensures 0 <= r ==> s[r] == c
    ensures forall j :: 0 <= j < |s| && (r < 0 || j < r) ==> s[j] != c
  {
    if |s| == 0 then -1
    else if s[0] == c then 0
    else var r := IndexOf(s[1..], c); if r < 0 then -1 else r + 1
  }

  /** `String.prototype.split(sep)` for a one-character separator. */
  function Split(s: string, sep: char): (parts: seq<string>)
    ensures |parts| >= 1
    decreases |s|
  {
    var i := IndexOf(s, sep);
    if i < 0 then [s] else [s[..i]] + Split(s[i + 1..], sep)
  }

  /** No piece holds the separator. */
  lemma {:induction false} SplitPieces(s: string, sep: char)
    ensures forall n :: 0 <= n < |Split(s, sep)| ==> sep !in Split(s, sep)[n]
    decreases |s|
  {
    var i := IndexOf(s, sep);
    if i >= 0 {
      SplitPieces(s[i + 1..], sep);
      assert sep !in s[..i];
    }
  }

  /** Joining the pieces with the separator gives back the string. */
  lemma {:induction false} SplitJoin(s: string, sep: char)
    ensures Join(Split(s, sep), [sep]) == s
    decreases |s|
  {
    var i := IndexOf(s, sep);
    if i >= 0 {
      var rest := Split(s[i + 1..], sep);
      var parts := [s[..i]] + rest;
      SplitJoin(s[i + 1..], sep);
      assert parts[0] == s[..i] && parts[1..] == rest;
      assert Join(parts, [sep]) == s[..i] + [sep] + Join(rest, [sep]);
      assert s == s[..i] + [sep] + s[i + 1..];
    }
  }

  lemma IndexOfUnique(s: string, c: char, k: nat)
    requires k < |s| && s[k] == c
    requires forall j :: 0 <= j < k ==> s[j] != c
    ensures IndexOf(s, c) == k
  {
  }

  /** The pieces are determined: any separator-free pieces that join to `s` are `Split(s)`. */
  lemma {:induction false} SplitUnique(s: string, sep: char, parts: seq<string>)
    requires |parts| >= 1
    requires forall n :: 0 <= n < |parts| ==> sep !in parts[n]
    requires Join(parts, [sep]) == s
    ensures Split(s, sep) == parts
    decreases |parts|
  {
    if |parts| == 1 {
      assert s == parts[0];
    } else {
      var head := parts[0];
      var tail := Join(parts[1..], [sep]);
      assert s == head + [sep] + tail;
      assert forall j :: 0 <= j < |head| ==> s[j] == head[j];
      IndexOfUnique(s, sep, |head|);
      assert s[..|head|] == head;
      assert s[|head| + 1..] == tail;
      SplitUnique(tail, sep, parts[1..]);
      assert parts == [head] + parts[1..];
    }
  }
}
